=== FILE: README.md ===
# career-mcp backend, modelled in Dafny

This project models the Python backend of the career-mcp job search in Dafny. It has three layers:

- `app.py`: the Careerjet search with its direct-HTTP fallback and its demo answer, plus the job-details placeholder.
- `api_server.py`: the two GET handlers the mobile application calls, and the reshaping of a search result into the mobile schema. That reshaping includes the requirement extraction and the contract-type labels.
- `server.py`: the two MCP tools, which fill in their own defaults and forward to `app.py`.

Each piece of Python becomes a pure function over immutable values:

- A Python value is a `Json` (null, bool, int, str, list or dict).
- A dict of search parameters is a `map<Param, Json>`, keyed by the parameter's name.
- An HTTP handler is a function from the query-parameter map to a status and a body.
- An exception that the formatting code can raise is a `PyError` carrying CPython's message text. The handler turns it into a 500 answer.
- The outside world is an `App.Env` value: what the Careerjet client does with a request, whether `requests` can be imported, and what the HTTP transport answers.
- Python's per-process `hash` is a function parameter.

Files:

| file | module | what it holds |
|---|---|---|
| `wrappers.dfy` | `Wrappers` | `Option` and `Result` |
| `json.dfy` | `Json` | Python values, `dict.get`, type names, hashability, the exceptions raised while formatting |
| `pystr.dfy` | `PyStr` | `str.strip()`, ASCII `str.lower()`, substring test |
| `pyint.dfy` | `PyInt` | `str(int)` and `int(str)` |
| `params.dfy` | `Params` | the search parameter names |
| `skills.dfy` | `Skills` | `extract_requirements`, `format_contract_type` |
| `format.dfy` | `SearchFormat` | `format_search_results` |
| `app.dfy` | `App` | `search_jobs`, `search_jobs_direct_api`, `create_demo_response`, `get_job_details` |
| `api_server.dfy` | `ApiServer` | `api_search_jobs`, `api_job_details` |
| `mcp_server.dfy` | `McpServer` | `search_jobs_tool`, `get_job_details_tool` |

Where the documentation and the code differ, the model follows the code:

- The search endpoint reads only these parameters: `keywords`, `location`, `locale`, `sort`, `pagesize`, `contracttype` and `contractperiod`. Any other query parameter, such as an experience level or a company, is ignored.
- The page size is capped at 50 from above only. Zero and negative values pass through unchanged.
- The demo answer built by `create_demo_response` always has exactly three jobs. No job count is asked for.
- `search_jobs` and the two handlers answer with an error dict, or a 400 or 500 status. They never raise.

## Model

| member | source | states |
|---|---|---|
| PyStr.Strip | api_server.py:49-50 | `strip()` never lengthens the input, and its result neither starts nor ends with whitespace |
| PyStr.TrimLeft | api_server.py:49 | the leading-whitespace half of `strip()`: a suffix of the input, everything dropped is whitespace, and what is left does not start with whitespace |
| PyStr.TrimRight | api_server.py:49 | the trailing-whitespace half of `strip()`: a prefix of the input, everything dropped is whitespace, and what is left does not end with whitespace |
| PyStr.StripIsInfix | api_server.py:49-50 | the stripped text occurs inside the original at some position, with only whitespace before and after it |
| PyStr.KeptByStrip | api_server.py:49-50 | every character of the input that is not whitespace appears in the result of `strip()` |
| PyStr.StripEmptyIff | api_server.py:52 | `not s.strip()` holds exactly when every character of `s` is whitespace |
| PyStr.StripIdempotent | api_server.py:49-50 | stripping twice gives the same as stripping once |
| PyStr.StripUnchanged | api_server.py:49-50 | a string with no whitespace at either end is its own `strip()` |
| PyStr.Lower | api_server.py:233 | `lower()` keeps the length and maps each character independently (ASCII letters to lower case) |
| PyStr.ContainsIff | api_server.py:236 | the substring test `p in s` holds exactly when `p` occurs in `s` at some position |
| PyInt.NatToString | api_server.py:198 | `str(n)` for a natural number is a non-empty string of decimal digits, with a leading zero only for zero |
| PyInt.IntToString | app.py:100 | `str(n)` starts with a minus sign exactly when `n` is negative, and everything after that sign is decimal digits with no leading zero unless `n` is zero |
| PyInt.NatToStringValue | api_server.py:73 | reading back the decimal digits of `str(n)` gives `n` |
| PyInt.ParseInt | api_server.py:72-77 | `int(s)` succeeds exactly when the text left after the whitespace `int()` skips is an optional sign followed by digits (single underscores allowed between digits), and then yields the value those digits spell with that sign; it fails on a blank string |
| PyInt.IntStrip | api_server.py:73 | the text `int()` parses is the input without the whitespace `int()` skips at its two ends: everything before and after it is skipped whitespace, and it neither starts nor ends with such whitespace |
| PyInt.InteriorSpaceFails | api_server.py:73-77 | whitespace inside the number is not skipped: `int("5 5")` raises |
| PyInt.KeptByIntStrip | api_server.py:73 | every character `int()` does not skip is part of the text it parses |
| PyInt.SeparatorNotSkipped | api_server.py:73-77 | the separator U+001C is removed by `strip()` but not skipped by `int()`, so `int("\x1c5")` raises |
| PyInt.NonNumericFails | api_server.py:73-76 | `int(s)` raises `ValueError` when `s` holds a character that is not whitespace `int()` skips, a digit, an underscore or a sign, as in "abc", "1.5" or "\x1c5" |
| PyInt.ParseIntRoundTrip | api_server.py:73 | `int(str(n)) == n` for every integer `n` |
| Json.Get | api_server.py:156-165 | `d.get(key, default)` (and `request.args.get`) is the stored value when the key is present, whatever it is (null included), and the default only when it is absent |
| Skills.MatchingSkills | api_server.py:235-237 | a skill is collected exactly when it is in the vocabulary and its lower-cased form occurs in the lower-cased description |
| Skills.MatchingSkillsOrdered | api_server.py:235-237 | over a vocabulary without repeats, the collected skills have no repeats and appear in vocabulary order |
| Skills.MatchingSkillsSorted | api_server.py:235-237 | the collected skills appear in increasing vocabulary position (the induction behind the previous row) |
| Skills.CommonSkillsDistinct | api_server.py:226-230 | the 21-skill vocabulary lists every skill once |
| Skills.ExtractRequirements | api_server.py:221-243 | between one and five items; exactly the three default requirements when no vocabulary skill is mentioned; otherwise only mentioned vocabulary skills |
| Skills.ExtractRequirementsOrder | api_server.py:226-243 | when some skill is mentioned, the result has no repeats, follows vocabulary order, skips no mentioned skill that comes earlier in the vocabulary than one it lists, and lists every mentioned skill when it has fewer than five |
| Skills.FirstMatchesOrdered | api_server.py:235-243 | the first `n` matches of a repeat-free list keep its order and skip no earlier match |
| Skills.ExtractedAreFirstMatches | api_server.py:240-243 | when some skill is mentioned, the result is the first five matches |
| Skills.FormatContractType | api_server.py:245-256 | 'c' gives Sözleşmeli, 't' gives Geçici, 'part' gives Yarı Zamanlı, and every other code ('p' and 'f' included) gives Tam Zamanlı; each label arises from exactly those codes |
| SearchFormat.JobsToFormat | api_server.py:193-196 | the loop visits the items of a list; iterating None, a bool or an int raises "object is not iterable" |
| SearchFormat.RequirementsOf | api_server.py:203 | the requirements computed from a string description are `extract_requirements` of it as a list of strings, one to five items |
| SearchFormat.ContractLabel | api_server.py:205 | the job type of a real job is `format_contract_type` of a string contract code, and Tam Zamanlı for a code of any other type; always one of the four labels |
| SearchFormat.FormatDemoJob | api_server.py:155-166 | a demo job formats exactly when it is a dict with a hashable id source and a string description (the defaults are evaluated eagerly); title, company, description and url are copied with the empty default; location, id, requirements, salary, type and the posted date (`date`, then `posted_date`) come from the job when present and from their defaults otherwise, the requirements default being `extract_requirements` of the description |
| SearchFormat.FormatRealJob | api_server.py:197-208 | a real job formats exactly when it is a dict with a hashable id source, a string description and a hashable contract code; its id is always the hash, its requirements are always `extract_requirements` of the description, its type is the label of `contracttype`, title, company, description, url and the posted date (`date`) are copied with the empty default, the salary defaults to "Belirtilmemiş" and its location comes from `locations` |
| SearchFormat.RealJobRequirements | api_server.py:196-244 | a formatted real job lists the first five vocabulary skills its description mentions, in vocabulary order, or the three default requirements when it mentions none |
| SearchFormat.FormatJobs | api_server.py:196-209 | the loop succeeds exactly when every job formats, giving one output per input in order; otherwise it fails with the exception of the first job that does not format |
| SearchFormat.FormatDemoJobs | api_server.py:152-167 | the demo loop succeeds exactly when every job is formattable as a demo job, and keeps order and count |
| SearchFormat.FormatRealJobs | api_server.py:194-209 | the real-results loop succeeds exactly when every job is formattable as a real job, and keeps order and count |
| SearchFormat.FormatSearchResults | api_server.py:146-219 | a non-dict raises; a demo result (checked first) gives a demo page with one job per listed job in order, `total_jobs` or the count, and `message` and `enhanced` from the result or their defaults; otherwise an `error` key gives a failure page with no jobs, total 0 and `message` or its default; otherwise a results page with one job per listed job, `hits` or the count, and the criteria echoed |
| App.SearchArgsWithDefaults | app.py:1 | a call that omits the defaulted arguments passes keywords, location, locale and keyword arguments through unchanged and uses the affiliate id, IP, user agent and URL defaults of `search_jobs` |
| PyStr.FirstN | api_server.py:243 | `s[:n]` on a string or a list is the prefix of `s` of length `min(n, len(s))` |
| App.ClientParams | app.py:27-39 | the client path always sends the six base keys with the call's values; from the extra arguments it copies exactly those named sort, start_num, pagesize, page, contracttype or contractperiod, with their values |
| App.ClientBase | app.py:27-34 | the six base keys and nothing else, each with the call's value |
| App.ClientExtras | app.py:36-39 | exactly the whitelisted extra arguments, values unchanged |
| App.DirectParams | app.py:63-72 | the direct path always sends keywords, location and the affiliate id as `apikey`; from the extra arguments it copies exactly contracttype, salary and page whose value is not None |
| App.DirectRequest | app.py:76-81 | the request goes to the Careerjet API URL with a 10-second timeout, the direct parameters and the caller's user agent |
| App.DirectRequestIgnores | app.py:53-81 | the locale, the user's IP and the page URL do not influence the direct request |
| App.ClassifyResponse | app.py:83-103 | 200 with a JSON body gives that body; 200 with an unparsable body gives "Invalid JSON response" and exactly the first 500 characters of the text; 401 gives the authentication error and message with `status_code` 401; any other status gives an error naming that status, exactly the first 200 characters of the text or "No response content" when it is empty, and the final URL under `url` |
| App.DemoJob | app.py:122-130 | each demo job's title starts with the keywords; it carries the given location, a description and a URL, and no id or requirements |
| App.DemoJobs | app.py:121-149 | three jobs: the first two at the location, the third at the location followed by " (Remote)" |
| App.CreateDemoResponse | app.py:110-152 | type "demo", no error key, exactly three jobs of the demo shape, `total_jobs` equal to the number of jobs, and `search_params` echoing the keywords and the location |
| App.DemoResponseWith | app.py:114-152 | the demo dict holds the given jobs, type "demo", total 3 and the echoed search parameters |
| App.SearchJobsDirectApi | app.py:53-107 | without `requests` it raises the import error; a transport exception gives exactly the demo response; another exception escapes with its message; an HTTP answer is returned exactly as `ClassifyResponse` turns it into a result |
| App.SearchJobs | app.py:1-50 | the client's answer when it returns; when it raises, the classified HTTP answer, the demo response on a transport exception, and the error dict of the caught message when `requests` is missing or another exception escapes |
| App.ClientAnswerWins | app.py:18-43 | when the client answers, `search_jobs` returns that answer, whatever the direct path would do |
| App.TransportFailureGivesDemo | app.py:105-107 | when the client raises and the transport raises, `search_jobs` returns exactly `create_demo_response(keywords, location)` |
| App.EscapedExceptionBecomesError | app.py:49-50 | when both paths raise, `search_jobs` returns a one-key dict whose error starts with "Failed to search jobs: " and, without `requests`, names the import failure |
| App.SearchError | app.py:50 | the error text is the fixed prefix followed by the caught message |
| App.AnsweredDirectRequest | app.py:83-103 | when the client raises and the direct request is answered, `search_jobs` returns the classified answer: the body of a 200 answer that parses, and otherwise the error dict with the status, status code, text prefix and URL that `ClassifyResponse` states |
| App.GetJobDetails | app.py:155-178 | with `requests` available the answer echoes the URL and has no error; without it, an error dict without the URL |
| App.JobDetailsIgnoreLocale | app.py:155 | the locale does not influence the job details |
| ApiServer.NonNumericPageSize | api_server.py:72-77 | a page size such as "abc", "1.5" or "\x1c5" is forwarded as 10 |
| ApiServer.ClampPageSize | api_server.py:67-77 | the page size is at most 50: an integer above 50 becomes 50, an integer up to 50 is kept, and anything that is not an integer becomes 10 |
| ApiServer.PageSizeOfInteger | api_server.py:72-77 | for every integer `n`, the page size clamp of the text `str(n)` is `n` capped at 50 (no lower bound) |
| ApiServer.PageSizeArg | api_server.py:67-77 | the forwarded page size is 10 when `pagesize` is absent and the clamp of its text otherwise |
| ApiServer.ForwardedPageSizeOfInteger | api_server.py:67-77 | a `pagesize` parameter that is the decimal text of `n` is forwarded as `n` capped at 50 |
| ApiServer.ForwardedParams | api_server.py:65-88 | `sort` (default relevance) and the page size are always forwarded; contracttype and contractperiod exactly when given and non-empty; nothing else |
| ApiServer.ParseSearchRequest | api_server.py:49-88 | blank keywords give the keywords 400 before the location is looked at; then blank location gives the location 400; otherwise the call carries the stripped, non-empty keywords and location, the locale (default tr_TR) and the forwarded parameters |
| ApiServer.ApiSearchJobs | api_server.py:47-110 | the status is 200, 400 or 500; 400 exactly when validation fails, with that error; for a valid request, 200 exactly when `format_search_results` of the `search_jobs` answer succeeds, with that formatted result as the body, and 500 otherwise, with the exception's message as details |
| ApiServer.KeywordsCheckedFirst | api_server.py:49-56 | blank keywords are answered with the keywords 400, whatever the location and the backend |
| ApiServer.SearchArgsStripped | api_server.py:49-62 | whitespace around the keywords and the location does not change the validated call |
| ApiServer.SameOtherArgs | api_server.py:65-88 | the locale, the page size and the forwarded parameters depend on neither the keywords nor the location |
| ApiServer.SameForwarded | api_server.py:80-88 | the forwarded parameters depend only on sort, contracttype and contractperiod |
| ApiServer.DirectPathDropsPaging | api_server.py:80-97 | on the direct fallback only the contract type survives of the forwarded parameters, and exactly when it was given |
| ApiServer.DirectParamsOfForwarded | app.py:69-72 | the same for any page size |
| ApiServer.DemoJobFormats | api_server.py:155-166 | a job of the demo shape formats without raising, at the location it carries |
| ApiServer.FormatsThreeDemoJobs | api_server.py:150-180 | a demo result listing three formattable jobs gives a demo page of their three formatted jobs, in order |
| ApiServer.FormatsDemoResponse | api_server.py:150-180 | formatting the demo response gives a demo page with three jobs, total 3, the criteria echoed, and the locations of the three demo jobs |
| ApiServer.DemoWhenBackendUnreachable | api_server.py:92-102 | with the client and the network both failing, a valid search answers 200 with the three demo jobs at the stripped location |
| ApiServer.ApiJobDetails | api_server.py:121-144 | a blank URL gives the URL 400; otherwise 200 with the job details of the stripped URL and the locale (default tr_TR) |
| ApiServer.DetailsUrlStripped | api_server.py:122-134 | whitespace around the URL does not change the answer |
| ApiServer.SameDetails | api_server.py:122-136 | the details answer depends only on the stripped URL and the locale |
| McpServer.ToolCall | server.py:9-23 | the tool's defaults: locale en_US, the shared affiliate id and IP, its own user agent and URL, and no optional argument |
| McpServer.OptionalArg | server.py:47-52 | each of the six optional parameters contributes its value exactly when it is truthy (a non-empty string, a non-zero integer), and no other parameter contributes anything |
| McpServer.OptionalParams | server.py:45-52 | `optional_params` holds sort, start_num, pagesize, page, contracttype and contractperiod each exactly when the argument is truthy, with the argument's value, and nothing else |
| McpServer.SearchJobsTool | server.py:9-65 | the tool answers exactly what `search_jobs` answers for the arguments the tool builds |
| McpServer.ToolSearchArgs | server.py:55-64 | the seven named arguments reach `search_jobs` unchanged, and the keyword arguments are exactly the truthy optional ones |
| McpServer.ToolClientParams | server.py:55-64 | the client receives the six base keys with the tool's values and an optional key exactly when its argument is truthy, with its value |
| McpServer.ToolDirectParams | server.py:55-64 | the direct fallback receives keywords, location and apikey, plus contracttype and page exactly when truthy, and nothing else |
| McpServer.Normalized | server.py:47-52 | replacing each falsy optional argument by None keeps what every argument contributes |
| McpServer.FalsyArgumentsIgnored | server.py:47-52 | passing "" or 0 for an optional argument gives the same answer as leaving it out |
| McpServer.SameOptionalParams | server.py:46-52 | calls whose optional arguments contribute the same entries build the same optional parameters |
| McpServer.ToolUserAgentSent | server.py:61 | both backend paths identify themselves with the user agent given to the tool |
| McpServer.ToolCallUserAgent | server.py:15 | with the tool's defaults, both paths send "Mozilla/5.0 (compatible; MCP-CareerjetBot/1.0)", not the shorter default of `search_jobs` |
| McpServer.GetJobDetailsTool | server.py:67-80 | the tool returns exactly `get_job_details(job_url, locale)`: the URL echoed without error when `requests` is available |
| McpServer.DefaultLocaleIrrelevant | server.py:68 | leaving the locale at en_US gives the same answer as any other locale |

## Left out

- Flask routing, CORS, `jsonify`, logging and `app.run`: a handler is modelled as a function from the query parameters to a status and a body.
- The health-check route is not modelled. It returns a fixed status dict and has no logic.
- The FastMCP server object, the `@mcp.tool()` decorators, `async` and the stdio transport. The tools are modelled as plain functions.
- The Careerjet client package and `requests.get` are function-typed fields of `App.Env`. Whatever they return or raise is an input to the model.
- The message text of an exception raised by the client or the transport comes from that input, not from the model.
- Python's `hash()` is randomised per process, so the model takes it as a parameter. Nothing is claimed about id values or their uniqueness.
- PyStr.Lower: only ASCII letters are lower-cased; Python's full Unicode case mapping is not modelled. A job description holding a non-ASCII letter whose lower case is ASCII (U+212A KELVIN SIGN lower-cases to 'k', so "Doc\u212Aer" mentions Docker in Python) can therefore yield different requirements than the source.
- PyInt.ParseInt: accepts ASCII digits with single underscores between them, an optional sign and surrounding whitespace as `int()` skips it (`isspace()` without U+001C..U+001F). It does not model the non-ASCII decimal digits that Python's `int()` also accepts, or the 4300-digit conversion limit.
- Floats and other JSON values outside null, bool, int, str, list and dict are not modelled.
- A dict is a map, so the key order of the returned JSON objects is not modelled.
- `Params.Other` stands for any parameter name outside the known ones. The model does not require its name to differ from the known names.
- App.EscapedExceptionBecomesError: states the error prefix and, for a missing `requests`, the import message. When the transport raises another exception, its message comes from the transport input, so the lemma states only that the result is an error dict.
- The mobile application and the agent in other directories of the repository are not part of this model.

=== FILE: api_server.dfy ===
/** api_server.py: the two GET handlers, each a function from the query parameters (and the
    outside world) to a status code and a body. */
module ApiServer {
  import opened Wrappers
  import opened Json
  import opened PyStr
  import opened PyInt
  import App
  import opened SearchFormat
  import opened Params

  /** The JSON body of a 400 or 500 answer. */
  datatype ErrorBody = ErrorBody(error: string, message: string, details: Option<string>)

  /** What a handler sends back. */
  datatype Body =
    | Formatted(result: MobileResult)
    | Failed(failure: ErrorBody)
    | JobDetails(value: Json)

  datatype HttpResponse = HttpResponse(status: int, body: Body)

  const ServerLocale: string := "tr_TR"
  const DefaultSort: string := "relevance"
  const DefaultPageSize: string := "10"
  /** Largest page size forwarded to the search. */
  const MaxPageSize: int := 50
  /** Page size used when the parameter is not an integer. */
  const FallbackPageSize: int := 10

  const KeywordsRequired: HttpResponse :=
    HttpResponse(400, Failed(ErrorBody("Keywords parameter is required", "Anahtar kelime parametresi gereklidir", None)))
  const LocationRequired: HttpResponse :=
    HttpResponse(400, Failed(ErrorBody("Location parameter is required", "Lokasyon parametresi gereklidir", None)))
  const UrlRequired: HttpResponse :=
    HttpResponse(400, Failed(ErrorBody("URL parameter is required", "URL parametresi gereklidir", None)))

  const SearchFailedMessage: string := "İş arama sırasında bir hata oluştu"

  /** `request.args.get(key, default)`. */
  function ArgOr(args: map<string, string>, key: string, default: string): string
  {
    Get(args, key, default)
  }

  /** `if request.args.get(key):` — present and not empty. */
  predicate ArgGiven(args: map<string, string>, key: string)
  {
    key in args && args[key] != ""
  }

  /** The page size forwarded for the raw parameter: its integer value capped at 50 from above only,
      or 10 when it is not an integer. */
  function ClampPageSize(raw: string): (n: int)
    ensures n <= MaxPageSize
    ensures ParseInt(raw).None? ==> n == FallbackPageSize
    ensures ParseInt(raw).Some? && ParseInt(raw).value <= MaxPageSize ==> n == ParseInt(raw).value
    ensures ParseInt(raw).Some? && ParseInt(raw).value > MaxPageSize ==> n == MaxPageSize
  {
    match ParseInt(raw)
    case None => FallbackPageSize
    case Some(v) => if v > MaxPageSize then MaxPageSize else v
  }

  /** A page size written as a decimal integer is kept when at most 50 (zero and negatives
      included) and becomes 50 otherwise. */
  lemma PageSizeOfInteger(n: int)
    ensures ClampPageSize(IntToString(n)) == if n > MaxPageSize then MaxPageSize else n
  {
    ParseIntRoundTrip(n);
  }

  /** A page size that is not a decimal integer, such as "abc", "1.5" or "\x1c5", is forwarded as 10. */
  lemma NonNumericPageSize(args: map<string, string>, i: int)
    requires "pagesize" in args && 0 <= i < |args["pagesize"]|
    requires var c := args["pagesize"][i]; !IntSpace(c) && !IsDigit(c) && c != '_' && c != '+' && c != '-'
    ensures PageSizeArg(args) == FallbackPageSize
  {
    NonNumericFails(args["pagesize"], i);
  }

  /** A `pagesize` parameter written as a decimal integer is forwarded capped at 50. */
  lemma ForwardedPageSizeOfInteger(args: map<string, string>, n: int)
    requires "pagesize" in args && args["pagesize"] == IntToString(n)
    ensures PageSizeArg(args) == if n > MaxPageSize then MaxPageSize else n
  {
    PageSizeOfInteger(n);
  }

  /** The page size `api_search_jobs` forwards for its query parameters. */
  function PageSizeArg(args: map<string, string>): (n: int)
    ensures "pagesize" !in args ==> n == FallbackPageSize
    ensures "pagesize" in args ==> n == ClampPageSize(args["pagesize"])
  {
    assert ParseInt(DefaultPageSize) == Some(FallbackPageSize) by {
      ParseIntRoundTrip(FallbackPageSize);
      assert IntToString(FallbackPageSize) == DefaultPageSize;
    }
    ClampPageSize(ArgOr(args, "pagesize", DefaultPageSize))
  }

  /** The validated search call: stripped keywords and location, the locale, and the optional parameters. */
  datatype SearchCall = SearchCall(keywords: string, location: string, locale: string, params: map<Param, Json>)

  /** The optional parameters `api_search_jobs` forwards: `sort` and the page size always,
      `contracttype` and `contractperiod` only when given and not empty. */
  function ForwardedParams(args: map<string, string>, pageSize: int): (p: map<Param, Json>)
    ensures Sort in p && PageSize in p
    ensures ContractType in p <==> ArgGiven(args, "contracttype")
    ensures ContractPeriod in p <==> ArgGiven(args, "contractperiod")
    ensures forall k :: k in p ==> k.Sort? || k.PageSize? || k.ContractType? || k.ContractPeriod?
    ensures p[Sort] == JStr(ArgOr(args, "sort", DefaultSort))
    ensures p[PageSize] == JInt(pageSize)
    ensures ContractType in p ==> p[ContractType] == JStr(args["contracttype"])
    ensures ContractPeriod in p ==> p[ContractPeriod] == JStr(args["contractperiod"])
  {
    var base := map[Sort := JStr(ArgOr(args, "sort", DefaultSort)), PageSize := JInt(pageSize)];
    var contractType := if ArgGiven(args, "contracttype") then map[ContractType := JStr(args["contracttype"])] else map[];
    var contractPeriod := if ArgGiven(args, "contractperiod") then map[ContractPeriod := JStr(args["contractperiod"])] else map[];
    base + contractType + contractPeriod
  }

  /** The validation of `api_search_jobs`: keywords are checked before location, both after `strip()`. */
  function ParseSearchRequest(args: map<string, string>): (r: Result<SearchCall, HttpResponse>)
    ensures AllSpace(ArgOr(args, "keywords", "")) ==> r == Failure(KeywordsRequired)
    ensures !AllSpace(ArgOr(args, "keywords", "")) && AllSpace(ArgOr(args, "location", "")) ==> r == Failure(LocationRequired)
    ensures r.Success? <==> !AllSpace(ArgOr(args, "keywords", "")) && !AllSpace(ArgOr(args, "location", ""))
    ensures r.Success? ==>
      && r.value.keywords == Strip(ArgOr(args, "keywords", "")) && r.value.keywords != []
      && r.value.location == Strip(ArgOr(args, "location", "")) && r.value.location != []
      && r.value.locale == ArgOr(args, "locale", ServerLocale)
      && r.value.params == ForwardedParams(args, PageSizeArg(args))
  {
    var keywords := Strip(ArgOr(args, "keywords", ""));
    var location := Strip(ArgOr(args, "location", ""));
    StripEmptyIff(ArgOr(args, "keywords", ""));
    StripEmptyIff(ArgOr(args, "location", ""));
    if keywords == [] then Failure(KeywordsRequired)
    else if location == [] then Failure(LocationRequired)
    else Success(SearchCall(keywords, location, ArgOr(args, "locale", ServerLocale), ForwardedParams(args, PageSizeArg(args))))
  }

  /** The arguments `api_search_jobs` passes to `search_jobs`. */
  function SearchArgsOf(call: SearchCall): App.SearchArgs
  {
    App.SearchArgsWithDefaults(call.keywords, call.location, call.locale, call.params)
  }

  /** `GET /api/jobs/search`. A validation failure answers 400, an exception while formatting
      answers 500, and everything else (an upstream error included) answers 200. */
  function ApiSearchJobs(args: map<string, string>, env: App.Env, hash: Json -> int): (resp: HttpResponse)
    ensures resp.status == 200 || resp.status == 400 || resp.status == 500
    ensures resp.status == 400 <==> ParseSearchRequest(args).Failure?
    ensures resp.status == 400 ==> resp == ParseSearchRequest(args).error
    ensures resp.status == 200 ==> resp.body.Formatted?
    ensures resp.status == 500 ==> resp.body.Failed? && resp.body.failure.details.Some?
    ensures ParseSearchRequest(args).Success? ==>
      var call := ParseSearchRequest(args).value;
      var f := FormatSearchResults(App.SearchJobs(SearchArgsOf(call), env), call.keywords, call.location, hash);
      && (resp.status == 200 <==> f.Success?)
      && (resp.status == 200 ==> resp.body.result == f.value)
      && (resp.status == 500 ==> resp.body.failure.details == Some(f.error.Message()))
  {
    match ParseSearchRequest(args)
    case Failure(bad) => bad
    case Success(call) =>
      var result := App.SearchJobs(SearchArgsOf(call), env);
      match FormatSearchResults(result, call.keywords, call.location, hash)
      case Success(formatted) => HttpResponse(200, Formatted(formatted))
      case Failure(e) => HttpResponse(500, Failed(ErrorBody("Internal server error", SearchFailedMessage, Some(e.Message()))))
  }

  /** Blank keywords are rejected first, whatever the location and whatever the backend would do. */
  lemma KeywordsCheckedFirst(args: map<string, string>, env: App.Env, hash: Json -> int)
    requires AllSpace(ArgOr(args, "keywords", ""))
    ensures ApiSearchJobs(args, env, hash) == KeywordsRequired
  {
  }

  /** The direct fallback never receives the page size, the sort order or the contract period
      that `api_search_jobs` forwards: only the contract type survives its whitelist. */
  lemma DirectPathDropsPaging(args: map<string, string>)
    ensures ParseSearchRequest(args).Success? ==>
      var p := App.DirectParams(SearchArgsOf(ParseSearchRequest(args).value));
      && (forall k :: k in p ==> k.Keywords? || k.Location? || k.ApiKey? || k.ContractType?)
      && (ContractType in p <==> ArgGiven(args, "contracttype"))
  {
    if ParseSearchRequest(args).Success? {
      var call := ParseSearchRequest(args).value;
      DirectParamsOfForwarded(args, PageSizeArg(args), SearchArgsOf(call));
    }
  }

  /** `DirectPathDropsPaging` for any page size. */
  lemma DirectParamsOfForwarded(args: map<string, string>, pageSize: int, a: App.SearchArgs)
    requires a.kwargs == ForwardedParams(args, pageSize)
    ensures var p := App.DirectParams(a);
      && (forall k :: k in p ==> k.Keywords? || k.Location? || k.ApiKey? || k.ContractType?)
      && (ContractType in p <==> ArgGiven(args, "contracttype"))
  {
    assert forall k :: k in a.kwargs && App.DirectKey(k) ==> k.ContractType?;
  }

  /** A job of the demo shape formats without raising, at the location it carries. */
  lemma DemoJobFormats(job: Json, keywords: string, location: string, searched: string, hash: Json -> int)
    requires App.IsDemoJob(job, keywords, location)
    ensures Formattable(Demo, job)
    ensures FormatDemoJob(job, searched, hash).Success?
    ensures FormatDemoJob(job, searched, hash).value.location == JStr(location)
  {
  }

  /** A demo result listing three formattable jobs becomes a demo page of their three formatted jobs. */
  lemma FormatsThreeDemoJobs(demo: Json, jobs: seq<Json>, keywords: string, location: string, hash: Json -> int)
    requires demo.JObj? && IsDemoResult(demo.fields) && ListedJobs(demo.fields) == Success(jobs)
    requires |jobs| == 3 && Formattable(Demo, jobs[0]) && Formattable(Demo, jobs[1]) && Formattable(Demo, jobs[2])
    ensures var r := FormatSearchResults(demo, keywords, location, hash);
      && r.Success? && r.value.DemoPage? && |r.value.jobs| == 3
      && FormatDemoJob(jobs[0], location, hash) == Success(r.value.jobs[0])
      && FormatDemoJob(jobs[1], location, hash) == Success(r.value.jobs[1])
      && FormatDemoJob(jobs[2], location, hash) == Success(r.value.jobs[2])
      && r.value.totalResults == Get(demo.fields, "total_jobs", JInt(3))
      && r.value.searchCriteria == Criteria(keywords, location)
  {
    assert forall i :: 0 <= i < |jobs| ==> Formattable(Demo, jobs[i]) by {
      forall i | 0 <= i < |jobs| ensures Formattable(Demo, jobs[i]) {
        if i == 0 {} else if i == 1 {} else {}
      }
    }
  }

  /** Formatting a demo result gives a demo page with its three jobs in order: the first two
      at the searched location, the third at that location followed by " (Remote)". */
  lemma FormatsDemoResponse(demo: Json, keywords: string, location: string, hash: Json -> int)
    requires App.IsDemoResponse(demo, keywords, location)
    ensures var r := FormatSearchResults(demo, keywords, location, hash);
      && r.Success? && r.value.DemoPage?
      && |r.value.jobs| == 3 && r.value.totalResults == JInt(3)
      && r.value.searchCriteria == Criteria(keywords, location)
      && r.value.jobs[0].location == JStr(location)
      && r.value.jobs[1].location == JStr(location)
      && r.value.jobs[2].location == JStr(location + App.RemoteSuffix)
  {
    var jobs := demo.fields["jobs"].items;
    DemoJobFormats(jobs[0], keywords, location, location, hash);
    DemoJobFormats(jobs[1], keywords, location, location, hash);
    DemoJobFormats(jobs[2], keywords, location + App.RemoteSuffix, location, hash);
    assert ListedJobs(demo.fields) == Success(jobs);
    FormatsThreeDemoJobs(demo, jobs, keywords, location, hash);
  }

  /** With the Careerjet client and the network both failing, a valid search answers 200 with the three
      demo jobs for the stripped keywords and location. */
  lemma DemoWhenBackendUnreachable(args: map<string, string>, env: App.Env, hash: Json -> int)
    ensures BackendUnreachable(args, env) ==>
      var resp := ApiSearchJobs(args, env, hash);
      var location := Strip(ArgOr(args, "location", ""));
      && resp.status == 200 && resp.body.Formatted? && resp.body.result.DemoPage?
      && |resp.body.result.jobs| == 3 && resp.body.result.totalResults == JInt(3)
      && resp.body.result.jobs[0].location == JStr(location)
      && resp.body.result.jobs[1].location == JStr(location)
      && resp.body.result.jobs[2].location == JStr(location + App.RemoteSuffix)
  {
    if BackendUnreachable(args, env) {
      var call := ParseSearchRequest(args).value;
      App.TransportFailureGivesDemo(SearchArgsOf(call), env);
      FormatsDemoResponse(App.CreateDemoResponse(call.keywords, call.location), call.keywords, call.location, hash);
    }
  }

  /** The request is valid, the Careerjet client raises, and the direct request fails in transport. */
  predicate BackendUnreachable(args: map<string, string>, env: App.Env)
  {
    && ParseSearchRequest(args).Success?
    && var a := SearchArgsOf(ParseSearchRequest(args).value);
      && env.careerjet(a.locale, App.ClientParams(a)).Raised?
      && env.requestsInstalled && env.http(App.DirectRequest(a)).RequestException?
  }

  /** `GET /api/jobs/details`: 400 for a blank URL, otherwise the job details for the stripped URL. */
  function ApiJobDetails(args: map<string, string>, env: App.Env): (resp: HttpResponse)
    ensures AllSpace(ArgOr(args, "url", "")) <==> resp == UrlRequired
    ensures !AllSpace(ArgOr(args, "url", "")) ==>
      resp == HttpResponse(200, JobDetails(App.GetJobDetails(Strip(ArgOr(args, "url", "")), ArgOr(args, "locale", ServerLocale), env)))
  {
    var url := Strip(ArgOr(args, "url", ""));
    StripEmptyIff(ArgOr(args, "url", ""));
    if url == [] then UrlRequired
    else HttpResponse(200, JobDetails(App.GetJobDetails(url, ArgOr(args, "locale", ServerLocale), env)))
  }

  /** Whitespace around the URL makes no difference: stripping it first gives the same answer. */
  lemma DetailsUrlStripped(args: map<string, string>, env: App.Env)
    ensures ApiJobDetails(args, env) == ApiJobDetails(args["url" := Strip(ArgOr(args, "url", ""))], env)
  {
    var raw := ArgOr(args, "url", "");
    var args' := args["url" := Strip(raw)];
    assert ArgOr(args', "url", "") == Strip(raw);
    assert ArgOr(args', "locale", ServerLocale) == ArgOr(args, "locale", ServerLocale);
    StripIdempotent(raw);
    SameDetails(args, args', env);
  }

  /** The details answer depends only on the stripped URL and the locale. */
  lemma SameDetails(args: map<string, string>, args': map<string, string>, env: App.Env)
    requires Strip(ArgOr(args', "url", "")) == Strip(ArgOr(args, "url", ""))
    requires ArgOr(args', "locale", ServerLocale) == ArgOr(args, "locale", ServerLocale)
    ensures ApiJobDetails(args', env) == ApiJobDetails(args, env)
  {
    StripEmptyIff(ArgOr(args, "url", ""));
    StripEmptyIff(ArgOr(args', "url", ""));
  }

  /** Whitespace around the keywords and the location makes no difference to the validated call. */
  lemma SearchArgsStripped(args: map<string, string>)
    ensures var args' := args["keywords" := Strip(ArgOr(args, "keywords", ""))]["location" := Strip(ArgOr(args, "location", ""))];
      ParseSearchRequest(args') == ParseSearchRequest(args)
  {
    var keywords, location := ArgOr(args, "keywords", ""), ArgOr(args, "location", "");
    var args' := args["keywords" := Strip(keywords)]["location" := Strip(location)];
    assert ArgOr(args', "keywords", "") == Strip(keywords);
    assert ArgOr(args', "location", "") == Strip(location);
    SameOtherArgs(args, Strip(keywords), Strip(location));
    StripIdempotent(keywords);
    StripIdempotent(location);
    StripEmptyIff(keywords);
    StripEmptyIff(Strip(keywords));
    StripEmptyIff(location);
    StripEmptyIff(Strip(location));
  }

  /** Setting the keywords and the location leaves the locale and the forwarded parameters as they were. */
  lemma SameOtherArgs(args: map<string, string>, keywords: string, location: string)
    ensures var args' := args["keywords" := keywords]["location" := location];
      && ArgOr(args', "locale", ServerLocale) == ArgOr(args, "locale", ServerLocale)
      && PageSizeArg(args') == PageSizeArg(args)
      && ForwardedParams(args', PageSizeArg(args')) == ForwardedParams(args, PageSizeArg(args))
  {
    var args' := args["keywords" := keywords]["location" := location];
    SameArg(args, keywords, location, "locale");
    SameArg(args, keywords, location, "pagesize");
    SameArg(args, keywords, location, "sort");
    SameArg(args, keywords, location, "contracttype");
    SameArg(args, keywords, location, "contractperiod");
    SameForwarded(args, args', PageSizeArg(args));
  }

  /** `args` and `args'` agree on the parameter `key`. */
  predicate AgreeOn(args: map<string, string>, args': map<string, string>, key: string)
  {
    (key in args' <==> key in args) && (key in args ==> args'[key] == args[key])
  }

  /** A parameter other than the keywords and the location is untouched by setting those two. */
  lemma SameArg(args: map<string, string>, keywords: string, location: string, key: string)
    requires key != "keywords" && key != "location"
    ensures AgreeOn(args, args["keywords" := keywords]["location" := location], key)
  {
  }

  /** The forwarded parameters depend only on the three parameters they read. */
  lemma SameForwarded(args: map<string, string>, args': map<string, string>, pageSize: int)
    requires AgreeOn(args, args', "sort") && AgreeOn(args, args', "contracttype") && AgreeOn(args, args', "contractperiod")
    ensures ForwardedParams(args', pageSize) == ForwardedParams(args, pageSize)
  {
    assert ArgOr(args', "sort", DefaultSort) == ArgOr(args, "sort", DefaultSort);
    assert ArgGiven(args', "contracttype") == ArgGiven(args, "contracttype");
    assert ArgGiven(args', "contractperiod") == ArgGiven(args, "contractperiod");
  }
}

=== FILE: app.dfy ===
/** app.py: the Careerjet search with its client path, its direct HTTP fallback and its demo data. */
module App {
  import opened Wrappers
  import opened Json
  import opened PyStr
  import opened PyInt
  import opened Params

  const DefaultAffid: string := "213e213hd12344552"
  const DefaultUserIp: string := "127.0.0.1"
  const DefaultUserAgent: string := "Mozilla/5.0"
  const DefaultUrl: string := "http://example.com"
  const DefaultLocale: string := "en_US"

  /** The endpoint the direct fallback calls. */
  const CareerjetApiUrl: string := "https://api.careerjet.com/jobs"
  /** Seconds the direct fallback waits for an answer. */
  const DirectTimeout: int := 10

  /** Keyword arguments the Careerjet client path copies into its search parameters. */
  predicate ClientKey(k: Param) {
    k.Sort? || k.StartNum? || k.PageSize? || k.Page? || k.ContractType? || k.ContractPeriod?
  }
  /** The six named arguments the client path always sends. */
  predicate ClientBaseKey(k: Param) {
    k.Keywords? || k.Location? || k.Affid? || k.UserIp? || k.UserAgent? || k.Url?
  }
  /** Keyword arguments the direct HTTP path copies, when they are not None. */
  predicate DirectKey(k: Param) {
    k.ContractType? || k.Salary? || k.Page?
  }
  /** The three arguments the direct path always sends. */
  predicate DirectBaseKey(k: Param) {
    k.Keywords? || k.Location? || k.ApiKey?
  }

  /** `str(e)` of the ImportError raised when the `requests` package is absent. */
  const NoRequestsMessage: string := "No module named 'requests'"

  /** What `CareerjetAPIClient(locale).search(params)` did: returned a value or raised
      (an ImportError of the client package included). */
  datatype ClientOutcome = Returned(value: Json) | Raised(message: string)

  /** A response body as `response.json()` sees it. */
  datatype Body = Parsed(value: Json) | NotJson

  /** The GET request the direct path hands to `requests.get`. */
  datatype HttpRequest = HttpRequest(url: string, params: map<Param, Json>, headers: map<string, string>, timeout: int)

  /** What `requests.get` did: answered, raised a `RequestException`, or raised something else. */
  datatype HttpOutcome =
    | Response(status: int, body: Body, text: string, finalUrl: string)
    | RequestException(message: string)
    | OtherException(message: string)

  /** The outside world as the search sees it: the Careerjet client, whether `requests`
      can be imported, and the HTTP transport. */
  datatype Env = Env(
    careerjet: (string, map<Param, Json>) -> ClientOutcome,
    requestsInstalled: bool,
    http: HttpRequest -> HttpOutcome)

  /** The arguments of `search_jobs` and `search_jobs_direct_api`; `kwargs` holds the extra keyword arguments. */
  datatype SearchArgs = SearchArgs(
    keywords: string,
    location: string,
    locale: string,
    affid: string,
    userIp: string,
    userAgent: string,
    url: string,
    kwargs: map<Param, Json>)

  /** A call of `search_jobs` that leaves the defaulted arguments at their defaults, except `locale`. */
  function SearchArgsWithDefaults(keywords: string, location: string, locale: string, kwargs: map<Param, Json>): (a: SearchArgs)
    ensures a.keywords == keywords && a.location == location && a.locale == locale && a.kwargs == kwargs
    ensures a.affid == DefaultAffid && a.userIp == DefaultUserIp
    ensures a.userAgent == DefaultUserAgent && a.url == DefaultUrl
  {
    SearchArgs(keywords, location, locale, DefaultAffid, DefaultUserIp, DefaultUserAgent, DefaultUrl, kwargs)
  }

  /** The parameters the client path sends: the six base arguments, plus the keyword
      arguments whose name satisfies `ClientKey`, with their values unchanged. */
  function ClientParams(a: SearchArgs): (p: map<Param, Json>)
    ensures forall k :: k in p <==> ClientBaseKey(k) || (k in a.kwargs && ClientKey(k))
    ensures Keywords in p && Location in p && Affid in p && UserIp in p && UserAgent in p && Url in p
    ensures p[Keywords] == JStr(a.keywords) && p[Location] == JStr(a.location)
    ensures p[Affid] == JStr(a.affid) && p[UserIp] == JStr(a.userIp)
    ensures p[UserAgent] == JStr(a.userAgent) && p[Url] == JStr(a.url)
    ensures forall k :: k in a.kwargs && ClientKey(k) ==> p[k] == a.kwargs[k]
  {
    var base := ClientBase(a);
    var extra := ClientExtras(a);
    assert forall k :: k in extra ==> k !in base;
    extra + base
  }

  /** The six named arguments of the client path. */
  function ClientBase(a: SearchArgs): (p: map<Param, Json>)
    ensures forall k :: k in p <==> ClientBaseKey(k)
    ensures Keywords in p && Location in p && Affid in p && UserIp in p && UserAgent in p && Url in p
    ensures p[Keywords] == JStr(a.keywords) && p[Location] == JStr(a.location)
    ensures p[Affid] == JStr(a.affid) && p[UserIp] == JStr(a.userIp)
    ensures p[UserAgent] == JStr(a.userAgent) && p[Url] == JStr(a.url)
  {
    map[
      Keywords := JStr(a.keywords),
      Location := JStr(a.location),
      Affid := JStr(a.affid),
      UserIp := JStr(a.userIp),
      UserAgent := JStr(a.userAgent),
      Url := JStr(a.url)]
  }

  /** The keyword arguments the client path copies. */
  function ClientExtras(a: SearchArgs): (p: map<Param, Json>)
    ensures forall k :: k in p <==> k in a.kwargs && ClientKey(k)
    ensures forall k :: k in p ==> p[k] == a.kwargs[k]
  {
    map k | k in a.kwargs && ClientKey(k) :: a.kwargs[k]
  }

  /** The parameters the direct path sends: keywords, location, the affiliate id as `apikey`,
      plus the keyword arguments satisfying `DirectKey` whose value is not None. */
  function DirectParams(a: SearchArgs): (p: map<Param, Json>)
    ensures forall k :: k in p <==> DirectBaseKey(k) || (k in a.kwargs && DirectKey(k) && a.kwargs[k] != JNull)
    ensures Keywords in p && Location in p && ApiKey in p
    ensures p[Keywords] == JStr(a.keywords) && p[Location] == JStr(a.location)
    ensures p[ApiKey] == JStr(a.affid)
    ensures forall k :: k in p && DirectKey(k) ==> k in a.kwargs && p[k] == a.kwargs[k] != JNull
  {
    var base := map[Keywords := JStr(a.keywords), Location := JStr(a.location), ApiKey := JStr(a.affid)];
    var extra := map k | k in a.kwargs && DirectKey(k) && a.kwargs[k] != JNull :: a.kwargs[k];
    extra + base
  }

  /** The request the direct path issues. */
  function DirectRequest(a: SearchArgs): (req: HttpRequest)
    ensures req.url == CareerjetApiUrl && req.timeout == DirectTimeout
    ensures req.params == DirectParams(a)
    ensures req.headers == map["User-Agent" := a.userAgent, "Accept" := "application/json"]
  {
    HttpRequest(CareerjetApiUrl, DirectParams(a), map["User-Agent" := a.userAgent, "Accept" := "application/json"], DirectTimeout)
  }

  /** The locale, the user's IP and the page URL never reach the direct request. */
  lemma DirectRequestIgnores(a: SearchArgs, locale: string, userIp: string, url: string)
    ensures DirectRequest(a) == DirectRequest(a.(locale := locale, userIp := userIp, url := url))
  {
  }

  const AuthFailedError: string := "Authentication failed - Invalid API key"
  const AuthFailedMessage: string := "You need a valid Careerjet API key. Get one from https://www.careerjet.com/partners/api/"

  /** How the direct path turns an HTTP answer into its result. */
  function ClassifyResponse(status: int, body: Body, text: string, finalUrl: string): (r: Json)
    ensures status == 200 && body.Parsed? ==> r == body.value
    ensures !(status == 200 && body.Parsed?) ==> r.JObj? && "error" in r.fields && r.fields["error"].JStr?
    ensures status == 200 && body.NotJson? ==>
      && r.fields["error"] == JStr("Invalid JSON response")
      && "raw_response" in r.fields && r.fields["raw_response"] == JStr(FirstN(text, 500))
    ensures status == 401 ==>
      && r.fields["error"] == JStr(AuthFailedError) && "message" in r.fields && r.fields["message"] == JStr(AuthFailedMessage)
      && "status_code" in r.fields && r.fields["status_code"] == JInt(401)
    ensures status != 200 && status != 401 ==>
      && Contains(r.fields["error"].s, IntToString(status))
      && "message" in r.fields
      && (text == [] ==> r.fields["message"] == JStr("No response content"))
      && (text != [] ==> r.fields["message"] == JStr(FirstN(text, 200)))
      && "url" in r.fields && r.fields["url"] == JStr(finalUrl)
  {
    if status == 200 then
      match body
      case Parsed(v) => v
      case NotJson => JObj(map["error" := JStr("Invalid JSON response"), "raw_response" := JStr(FirstN(text, 500))])
    else if status == 401 then
      JObj(map["error" := JStr(AuthFailedError), "message" := JStr(AuthFailedMessage), "status_code" := JInt(401)])
    else
      var error := "API request failed with status " + IntToString(status);
      ContainsSuffix("API request failed with status ", IntToString(status));
      JObj(map[
        "error" := JStr(error),
        "message" := JStr(if text != [] then FirstN(text, 200) else "No response content"),
        "url" := JStr(finalUrl)])
  }

  /** The shape every demo job has: a title that starts with the keywords, the given location,
      a description and a URL, and neither an id nor a requirements list of its own. */
  predicate IsDemoJob(job: Json, keywords: string, location: string)
  {
    && job.JObj?
    && "title" in job.fields && job.fields["title"].JStr? && IsPrefix(keywords, job.fields["title"].s)
    && "location" in job.fields && job.fields["location"] == JStr(location)
    && "description" in job.fields && job.fields["description"].JStr?
    && "url" in job.fields && job.fields["url"].JStr?
    && "id" !in job.fields && "requirements" !in job.fields
  }

  /** One synthetic job of the demo response; its title is the keywords followed by `titleTail`. */
  function DemoJob(keywords: string, titleTail: string, company: string, location: string, salary: string,
                   description: string, url: string, date: string): (job: Json)
    ensures IsDemoJob(job, keywords, location)
  {
    var title := keywords + titleTail;
    assert title[..|keywords|] == keywords;
    JObj(map[
      "title" := JStr(title),
      "company" := JStr(company),
      "location" := JStr(location),
      "salary" := JStr(salary),
      "description" := JStr(description),
      "url" := JStr(url),
      "date" := JStr(date)])
  }

  // The fixed text of the three demo jobs: title tails, companies, salaries, description pieces, URLs.
  const SeniorTail: string := " - Senior Pozisyon"
  const JuniorTail: string := " - Junior Pozisyon"
  const RemoteTail: string := " - Remote Çalışma"
  const SeniorCompany: string := "Demo Teknoloji A.Ş."
  const JuniorCompany: string := "Yazılım Çözümleri Ltd."
  const RemoteCompany: string := "Dijital Ajans"
  const SeniorSalary: string := "15.000 - 25.000 TL"
  const JuniorSalary: string := "8.000 - 15.000 TL"
  const RemoteSalary: string := "12.000 - 20.000 TL"
  const SeniorWanted: string := " alanında deneyimli profesyonel aranıyor. "
  const SeniorPlace: string := " lokasyonunda çalışma imkanı."
  const JuniorIntro: string := "Yeni mezun "
  const JuniorWanted: string := " uzmanı aranıyor. "
  const JuniorPlace: string := " merkezli çalışma."
  const RemoteIntro: string := "Uzaktan çalışma imkanı ile "
  const RemoteWanted: string := " pozisyonu. Esnek çalışma saatleri."
  const SeniorUrl: string := "https://example.com/job1"
  const JuniorUrl: string := "https://example.com/job2"
  const RemoteUrl: string := "https://example.com/job3"
  /** What the third demo job appends to the searched location. */
  const RemoteSuffix: string := " (Remote)"

  /** The three demo jobs, in the order the demo response lists them. */
  function DemoJobs(keywords: string, location: string): (jobs: seq<Json>)
    ensures |jobs| == 3
    ensures IsDemoJob(jobs[0], keywords, location)
    ensures IsDemoJob(jobs[1], keywords, location)
    ensures IsDemoJob(jobs[2], keywords, location + RemoteSuffix)
  {
    [
      DemoJob(keywords, SeniorTail, SeniorCompany, location, SeniorSalary,
              keywords + SeniorWanted + location + SeniorPlace, SeniorUrl, "2025-01-04"),
      DemoJob(keywords, JuniorTail, JuniorCompany, location, JuniorSalary,
              JuniorIntro + keywords + JuniorWanted + location + JuniorPlace, JuniorUrl, "2025-01-03"),
      DemoJob(keywords, RemoteTail, RemoteCompany, location + RemoteSuffix, RemoteSalary,
              RemoteIntro + keywords + RemoteWanted, RemoteUrl, "2025-01-02")
    ]
  }

  const DemoMessage: string := "Bu bir demo yanıttır. Gerçek Careerjet API'si için geçerli bir API key gereklidir."
  const DemoNote: string := "Gerçek iş ilanları için https://www.careerjet.com/partners/api/ adresinden API key alın."

  /** A demo result for `keywords` at `location`: typed 'demo', no error, three jobs whose count is
      `total_jobs`, the first two at the location and the third at the location marked remote. */
  predicate IsDemoResponse(r: Json, keywords: string, location: string)
  {
    && r.JObj? && "error" !in r.fields
    && "type" in r.fields && r.fields["type"] == JStr("demo")
    && "jobs" in r.fields && r.fields["jobs"].JList? && |r.fields["jobs"].items| == 3
    && "total_jobs" in r.fields && r.fields["total_jobs"] == JInt(|r.fields["jobs"].items|)
    && IsDemoJob(r.fields["jobs"].items[0], keywords, location)
    && IsDemoJob(r.fields["jobs"].items[1], keywords, location)
    && IsDemoJob(r.fields["jobs"].items[2], keywords, location + RemoteSuffix)
  }

  /** The fixed-shape demo result: three jobs built from the keywords and the location. */
  function CreateDemoResponse(keywords: string, location: string): (r: Json)
    ensures IsDemoResponse(r, keywords, location)
    ensures "search_params" in r.fields
    ensures r.fields["search_params"] == JObj(map["keywords" := JStr(keywords), "location" := JStr(location)])
  {
    DemoResponseWith(keywords, location, DemoJobs(keywords, location))
  }

  /** The demo dict around a given job list. */
  function DemoResponseWith(keywords: string, location: string, jobs: seq<Json>): (r: Json)
    ensures r.JObj? && "error" !in r.fields
    ensures "type" in r.fields && r.fields["type"] == JStr("demo")
    ensures "jobs" in r.fields && r.fields["jobs"] == JList(jobs)
    ensures "total_jobs" in r.fields && r.fields["total_jobs"] == JInt(3)
    ensures "search_params" in r.fields
    ensures r.fields["search_params"] == JObj(map["keywords" := JStr(keywords), "location" := JStr(location)])
  {
    JObj(map[
      "type" := JStr("demo"),
      "message" := JStr(DemoMessage),
      "search_params" := JObj(map["keywords" := JStr(keywords), "location" := JStr(location)]),
      "jobs" := JList(jobs),
      "total_jobs" := JInt(3),
      "note" := JStr(DemoNote)])
  }

  /** `search_jobs_direct_api`: the JSON value it returns, or the message of the exception it lets escape.
      A transport failure (`RequestException`) is answered with the demo response. */
  function SearchJobsDirectApi(a: SearchArgs, env: Env): (r: Result<Json, string>)
    ensures !env.requestsInstalled ==> r == Failure(NoRequestsMessage)
    ensures env.requestsInstalled && env.http(DirectRequest(a)).RequestException? ==>
      r == Success(CreateDemoResponse(a.keywords, a.location))
    ensures env.requestsInstalled && env.http(DirectRequest(a)).OtherException? ==>
      r == Failure(env.http(DirectRequest(a)).message)
    ensures env.requestsInstalled && env.http(DirectRequest(a)).Response? ==>
      var resp := env.http(DirectRequest(a));
      r == Success(ClassifyResponse(resp.status, resp.body, resp.text, resp.finalUrl))
  {
    if !env.requestsInstalled then Failure(NoRequestsMessage)
    else
      match env.http(DirectRequest(a))
      case Response(status, body, text, finalUrl) => Success(ClassifyResponse(status, body, text, finalUrl))
      case RequestException(_) => Success(CreateDemoResponse(a.keywords, a.location))
      case OtherException(msg) => Failure(msg)
  }

  /** What `search_jobs` puts before the message of an exception it catches. */
  const SearchFailedPrefix: string := "Failed to search jobs: "

  /** `search_jobs`: the client path first, the direct path when the client raises, and an
      error dict when the direct path raises too. It never raises. */
  function SearchJobs(a: SearchArgs, env: Env): (r: Json)
    ensures env.careerjet(a.locale, ClientParams(a)).Returned? ==> r == env.careerjet(a.locale, ClientParams(a)).value
    ensures env.careerjet(a.locale, ClientParams(a)).Raised? ==>
      && (!env.requestsInstalled ==> r == SearchError(NoRequestsMessage))
      && (env.requestsInstalled ==> match env.http(DirectRequest(a))
          case Response(status, body, text, finalUrl) => r == ClassifyResponse(status, body, text, finalUrl)
          case RequestException(_) => r == CreateDemoResponse(a.keywords, a.location)
          case OtherException(msg) => r == SearchError(msg))
  {
    match env.careerjet(a.locale, ClientParams(a))
    case Returned(v) => v
    case Raised(_) =>
      match SearchJobsDirectApi(a, env)
      case Success(v) => v
      case Failure(msg) => SearchError(msg)
  }

  /** When the client answers, that answer is the result, whatever the direct path would have done. */
  lemma ClientAnswerWins(a: SearchArgs, env: Env, env': Env)
    requires env.careerjet(a.locale, ClientParams(a)).Returned?
    requires env'.careerjet == env.careerjet
    ensures SearchJobs(a, env) == env.careerjet(a.locale, ClientParams(a)).value
    ensures SearchJobs(a, env') == SearchJobs(a, env)
  {
  }

  /** When the client raises and the transport raises a `RequestException`, the result is exactly the demo response. */
  lemma TransportFailureGivesDemo(a: SearchArgs, env: Env)
    requires env.careerjet(a.locale, ClientParams(a)).Raised?
    requires env.requestsInstalled && env.http(DirectRequest(a)).RequestException?
    ensures SearchJobs(a, env) == CreateDemoResponse(a.keywords, a.location)
  {
  }

  /** When the client raises and the direct path lets an exception escape, the result is an error dict
      that names that exception. */
  lemma EscapedExceptionBecomesError(a: SearchArgs, env: Env)
    requires env.careerjet(a.locale, ClientParams(a)).Raised?
    requires !env.requestsInstalled || env.http(DirectRequest(a)).OtherException?
    ensures var r := SearchJobs(a, env);
      && r.JObj? && |r.fields| == 1 && "error" in r.fields && r.fields["error"].JStr?
      && IsPrefix(SearchFailedPrefix, r.fields["error"].s)
      && (!env.requestsInstalled ==> Contains(r.fields["error"].s, NoRequestsMessage))
  {
    var msg := if !env.requestsInstalled then NoRequestsMessage else env.http(DirectRequest(a)).message;
    DirectFailureBecomesError(a, env, msg);
    var r := SearchError(msg);
    assert SearchJobs(a, env) == r;
  }

  /** When both paths fail, the result is the error dict of the direct path's message. */
  lemma DirectFailureBecomesError(a: SearchArgs, env: Env, msg: string)
    requires env.careerjet(a.locale, ClientParams(a)).Raised?
    requires !env.requestsInstalled || env.http(DirectRequest(a)).OtherException?
    requires msg == if !env.requestsInstalled then NoRequestsMessage else env.http(DirectRequest(a)).message
    ensures SearchJobs(a, env) == SearchError(msg)
  {
  }

  /** The error dict of `search_jobs` holds the caught message after the fixed prefix. */
  function SearchError(msg: string): (r: Json)
    ensures r.JObj? && |r.fields| == 1 && "error" in r.fields && r.fields["error"].JStr?
    ensures IsPrefix(SearchFailedPrefix, r.fields["error"].s)
    ensures Contains(r.fields["error"].s, msg)
  {
    assert (SearchFailedPrefix + msg)[..|SearchFailedPrefix|] == SearchFailedPrefix;
    ContainsSuffix(SearchFailedPrefix, msg);
    JObj(map["error" := JStr(SearchFailedPrefix + msg)])
  }

  /** When the client raises and the direct request is answered, the result is that answer as the direct
      path classifies it: the body of a 200 answer that parses, and an error dict otherwise. */
  lemma AnsweredDirectRequest(a: SearchArgs, env: Env)
    requires env.careerjet(a.locale, ClientParams(a)).Raised?
    requires env.requestsInstalled && env.http(DirectRequest(a)).Response?
    ensures var resp := env.http(DirectRequest(a));
      SearchJobs(a, env) == ClassifyResponse(resp.status, resp.body, resp.text, resp.finalUrl)
    ensures var resp := env.http(DirectRequest(a));
      var r := SearchJobs(a, env);
      && (resp.status == 200 && resp.body.Parsed? ==> r == resp.body.value)
      && (!(resp.status == 200 && resp.body.Parsed?) ==> r.JObj? && "error" in r.fields)
  {
  }

  const DetailsMessage: string := "Job details retrieval would require additional implementation"
  const DetailsSuggestion: string := "Use the search_jobs function to get job listings with basic details"

  /** `get_job_details`: a placeholder answer that echoes the URL; an error dict only when
      `requests` cannot be imported. */
  function GetJobDetails(jobUrl: string, locale: string, env: Env): (r: Json)
    ensures r.JObj?
    ensures env.requestsInstalled ==> "job_url" in r.fields && r.fields["job_url"] == JStr(jobUrl) && "error" !in r.fields
    ensures !env.requestsInstalled ==> "job_url" !in r.fields && "error" in r.fields
  {
    if env.requestsInstalled then
      JObj(map["job_url" := JStr(jobUrl), "message" := JStr(DetailsMessage), "suggestion" := JStr(DetailsSuggestion)])
    else
      JObj(map["error" := JStr("Failed to get job details: " + NoRequestsMessage)])
  }

  /** The locale does not influence the job details. */
  lemma JobDetailsIgnoreLocale(jobUrl: string, locale: string, locale': string, env: Env)
    ensures GetJobDetails(jobUrl, locale, env) == GetJobDetails(jobUrl, locale', env)
  {
  }
}

=== FILE: format.dfy ===
/** api_server.py: `format_search_results`, which reshapes a search result into the mobile
    application's schema. Every exception it can raise is kept as a `PyError`. */
module SearchFormat {
  import opened Wrappers
  import opened Json
  import opened PyInt
  import opened PyStr
  import opened Skills

  /** Which of the two job-shaping loops is running. */
  datatype Branch = Demo | Real

  /** A job in the mobile application's schema; each field is the JSON key of the same name
      (`jobType` is the key `type`). */
  datatype MobileJob = MobileJob(
    id: Json,
    title: Json,
    company: Json,
    location: Json,
    description: Json,
    requirements: Json,
    salary: Json,
    jobType: Json,
    postedDate: Json,
    url: Json)

  /** `{'query': keywords, 'location': location}`. */
  datatype Criteria = Criteria(query: string, location: string)

  /** The three shapes `format_search_results` returns.
      `DemoPage`: success true, type 'demo'. `ErrorPage`: success false, no jobs, total 0.
      `ResultsPage`: success true, no type. */
  datatype MobileResult =
    | DemoPage(jobs: seq<MobileJob>, totalResults: Json, searchCriteria: Criteria, message: Json, enhanced: Json)
    | ErrorPage(error: Json, message: Json)
    | ResultsPage(jobs: seq<MobileJob>, totalResults: Json, searchCriteria: Criteria)
  {
    /** The `success` flag. */
    function Succeeded(): bool
    {
      !ErrorPage?
    }

    /** The `jobs` list. */
    function JobList(): seq<MobileJob>
    {
      if ErrorPage? then [] else jobs
    }

    /** The `totalResults` value. */
    function Total(): Json
    {
      if ErrorPage? then JInt(0) else totalResults
    }
  }

  const DemoDefaultMessage: string := "Gelişmiş demo veriler gösteriliyor"
  const ErrorDefaultMessage: string := "Bir hata oluştu"
  const SalaryNotGiven: string := "Belirtilmemiş"

  /** `result.get('type') == 'demo'`. */
  predicate IsDemoResult(m: map<string, Json>)
  {
    Get(m, "type", JNull) == JStr("demo")
  }

  /** `for job in value`: the items a `for` loop visits, or the exception the loop raises.
      A non-empty string or dict yields strings, and a string has no `get`. */
  function JobsToFormat(value: Json): (r: Result<seq<Json>, PyError>)
    ensures value.JList? ==> r == Success(value.items)
    ensures value.JNull? || value.JBool? || value.JInt? ==> r == Failure(NotIterable(TypeName(value)))
  {
    match value
    case JList(items) => Success(items)
    case JStr(s) => if |s| == 0 then Success([]) else Failure(AttributeError("str", "get"))
    case JObj(m) => if |m| == 0 then Success([]) else Failure(AttributeError("str", "get"))
    case _ => Failure(NotIterable(TypeName(value)))
  }

  /** The value whose `hash` becomes a job id: the URL, else the title, else the empty string. */
  function IdSource(job: map<string, Json>): Json
  {
    Get(job, "url", Get(job, "title", JStr("")))
  }

  /** `str(hash(v))`; `hash` is per-process, so it is a parameter. */
  function HashId(v: Json, hash: Json -> int): Json
  {
    JStr(IntToString(hash(v)))
  }

  /** The description as `extract_requirements` receives it. */
  function DescriptionOf(job: map<string, Json>): Json
  {
    Get(job, "description", JStr(""))
  }

  /** The contract code as `format_contract_type` receives it. */
  function ContractCodeOf(job: map<string, Json>): Json
  {
    Get(job, "contracttype", JStr(""))
  }

  /** A job the loop of `branch` formats without raising: a dict whose id source is hashable,
      whose description is a string, and (real results only) whose contract code is hashable. */
  predicate Formattable(branch: Branch, job: Json)
  {
    && job.JObj?
    && Hashable(IdSource(job.fields))
    && DescriptionOf(job.fields).JStr?
    && (branch == Real ==> Hashable(ContractCodeOf(job.fields)))
  }

  /** The requirements computed from a description (only called on a string description). */
  function RequirementsOf(description: Json): (v: Json)
    ensures description.JStr? ==> v == StrList(ExtractRequirements(description.s))
    ensures description.JStr? ==> v.JList? && 1 <= |v.items| <= MaxRequirements
  {
    StrList(if description.JStr? then ExtractRequirements(description.s) else [])
  }

  /** The label of a contract code; a hashable non-string code is not in the table. */
  function ContractLabel(code: Json): (v: Json)
    ensures v == JStr(FullTime) || v == JStr(Contract) || v == JStr(Temporary) || v == JStr(PartTime)
    ensures code.JStr? ==> v == JStr(FormatContractType(code.s))
    ensures !code.JStr? ==> v == JStr(FullTime)
  {
    JStr(if code.JStr? then FormatContractType(code.s) else FullTime)
  }

  /** The fields both loops copy from the job with `job.get(key, '')`. */
  predicate CopiedFields(m: map<string, Json>, j: MobileJob)
  {
    && j.title == Get(m, "title", JStr(""))
    && j.company == Get(m, "company", JStr(""))
    && j.description == Get(m, "description", JStr(""))
    && j.url == Get(m, "url", JStr(""))
  }

  /** One job of a demo result in the mobile schema. The defaults of `dict.get` are evaluated even
      when the key is present, so the id hash and the requirement extraction can raise on any job. */
  function FormatDemoJob(job: Json, location: string, hash: Json -> int): (r: Result<MobileJob, PyError>)
    ensures r.Success? <==> Formattable(Demo, job)
    ensures r.Success? ==> r.value.location == Get(job.fields, "location", JStr(location))
    ensures r.Success? ==> r.value.id == Get(job.fields, "id", HashId(IdSource(job.fields), hash))
    ensures r.Success? ==> CopiedFields(job.fields, r.value)
    ensures r.Success? && "requirements" !in job.fields ==>
      && r.value.requirements == RequirementsOf(DescriptionOf(job.fields))
      && r.value.requirements.JList? && 1 <= |r.value.requirements.items| <= MaxRequirements
    ensures r.Success? && "requirements" in job.fields ==> r.value.requirements == job.fields["requirements"]
    ensures r.Success? ==> r.value.jobType == Get(job.fields, "type", JStr(FullTime))
    ensures r.Success? && "type" !in job.fields ==> r.value.jobType == JStr(FullTime)
    ensures r.Success? ==> r.value.salary == Get(job.fields, "salary", JStr(""))
    ensures r.Success? ==> r.value.postedDate == Get(job.fields, "date", Get(job.fields, "posted_date", JStr("")))
  {
    if !job.JObj? then Failure(AttributeError(TypeName(job), "get"))
    else
      var m := job.fields;
      if !Hashable(IdSource(m)) then Failure(Unhashable(TypeName(IdSource(m))))
      else if !DescriptionOf(m).JStr? then Failure(AttributeError(TypeName(DescriptionOf(m)), "lower"))
      else
        Success(MobileJob(
          Get(m, "id", HashId(IdSource(m), hash)),
          Get(m, "title", JStr("")),
          Get(m, "company", JStr("")),
          Get(m, "location", JStr(location)),
          DescriptionOf(m),
          Get(m, "requirements", RequirementsOf(DescriptionOf(m))),
          Get(m, "salary", JStr("")),
          Get(m, "type", JStr(FullTime)),
          Get(m, "date", Get(m, "posted_date", JStr(""))),
          Get(m, "url", JStr(""))))
  }

  /** One job of a real Careerjet result in the mobile schema: the id is always a hash, the
      requirements are always extracted, and the contract code is always translated. */
  function FormatRealJob(job: Json, location: string, hash: Json -> int): (r: Result<MobileJob, PyError>)
    ensures r.Success? <==> Formattable(Real, job)
    ensures r.Success? ==> r.value.location == Get(job.fields, "locations", JStr(location))
    ensures r.Success? ==> r.value.id == HashId(IdSource(job.fields), hash)
    ensures r.Success? ==> CopiedFields(job.fields, r.value)
    ensures r.Success? ==> r.value.requirements == RequirementsOf(DescriptionOf(job.fields))
    ensures r.Success? ==> r.value.requirements.JList? && 1 <= |r.value.requirements.items| <= MaxRequirements
    ensures r.Success? ==> r.value.postedDate == Get(job.fields, "date", JStr(""))
    ensures r.Success? ==> r.value.jobType == ContractLabel(ContractCodeOf(job.fields))
    ensures r.Success? ==> r.value.salary == Get(job.fields, "salary", JStr(SalaryNotGiven))
  {
    if !job.JObj? then Failure(AttributeError(TypeName(job), "get"))
    else
      var m := job.fields;
      if !Hashable(IdSource(m)) then Failure(Unhashable(TypeName(IdSource(m))))
      else if !DescriptionOf(m).JStr? then Failure(AttributeError(TypeName(DescriptionOf(m)), "lower"))
      else if !Hashable(ContractCodeOf(m)) then Failure(Unhashable(TypeName(ContractCodeOf(m))))
      else
        Success(MobileJob(
          HashId(IdSource(m), hash),
          Get(m, "title", JStr("")),
          Get(m, "company", JStr("")),
          Get(m, "locations", JStr(location)),
          DescriptionOf(m),
          RequirementsOf(DescriptionOf(m)),
          Get(m, "salary", JStr(SalaryNotGiven)),
          ContractLabel(ContractCodeOf(m)),
          Get(m, "date", JStr("")),
          Get(m, "url", JStr(""))))
  }

  /** The requirements of a formatted real job are the first five vocabulary skills its description
      mentions, in vocabulary order, or the three defaults when it mentions none. */
  lemma RealJobRequirements(job: Json, location: string, hash: Json -> int)
    requires Formattable(Real, job)
    ensures var d := Lower(DescriptionOf(job.fields).s);
      var req := FormatRealJob(job, location, hash).value.requirements;
      && ((exists skill :: skill in CommonSkills && Mentions(d, skill)) ==>
            req == StrList(FirstN(MatchingSkills(CommonSkills, d), MaxRequirements)))
      && ((forall skill :: skill in CommonSkills ==> !Mentions(d, skill)) ==> req == StrList(DefaultRequirements))
  {
    var d := Lower(DescriptionOf(job.fields).s);
    if exists skill :: skill in CommonSkills && Mentions(d, skill) {
      ExtractedAreFirstMatches(DescriptionOf(job.fields).s);
    }
  }

  /** The formatting loop: `format` applied to every job in order, stopping at the first exception. */
  function FormatJobs(format: Json -> Result<MobileJob, PyError>, jobs: seq<Json>): (r: Result<seq<MobileJob>, PyError>)
    ensures r.Success? <==> forall i :: 0 <= i < |jobs| ==> format(jobs[i]).Success?
    ensures r.Success? ==> |r.value| == |jobs|
    ensures r.Success? ==> forall i :: 0 <= i < |jobs| ==> format(jobs[i]) == Success(r.value[i])
    ensures r.Failure? ==>
      exists i :: 0 <= i < |jobs| && format(jobs[i]) == Failure(r.error)
        && forall j :: 0 <= j < i ==> format(jobs[j]).Success?
  {
    if |jobs| == 0 then Success([])
    else
      match format(jobs[0])
      case Failure(e) => Failure(e)
      case Success(first) =>
        match FormatJobs(format, jobs[1..])
        case Failure(e) =>
          assert forall i :: 1 <= i < |jobs| ==> jobs[1..][i - 1] == jobs[i];
          Failure(e)
        case Success(rest) =>
          assert forall i :: 1 <= i < |jobs| ==> jobs[1..][i - 1] == jobs[i];
          Success([first] + rest)
  }

  /** The loop over the jobs of a demo result. */
  function FormatDemoJobs(jobs: seq<Json>, location: string, hash: Json -> int): (r: Result<seq<MobileJob>, PyError>)
    ensures r.Success? <==> forall i :: 0 <= i < |jobs| ==> Formattable(Demo, jobs[i])
    ensures r.Success? ==> |r.value| == |jobs|
    ensures r.Success? ==> forall i :: 0 <= i < |jobs| ==> FormatDemoJob(jobs[i], location, hash) == Success(r.value[i])
  {
    FormatJobs(job => FormatDemoJob(job, location, hash), jobs)
  }

  /** The loop over the jobs of a real result. */
  function FormatRealJobs(jobs: seq<Json>, location: string, hash: Json -> int): (r: Result<seq<MobileJob>, PyError>)
    ensures r.Success? <==> forall i :: 0 <= i < |jobs| ==> Formattable(Real, jobs[i])
    ensures r.Success? ==> |r.value| == |jobs|
    ensures r.Success? ==> forall i :: 0 <= i < |jobs| ==> FormatRealJob(jobs[i], location, hash) == Success(r.value[i])
  {
    FormatJobs(job => FormatRealJob(job, location, hash), jobs)
  }

  /** The jobs a result lists, as the formatting loop visits them. */
  function ListedJobs(m: map<string, Json>): Result<seq<Json>, PyError>
  {
    JobsToFormat(Get(m, "jobs", JList([])))
  }

  /** `format_search_results(result, keywords, location)`: the mobile-schema answer, or the
      exception the formatting raises. A demo result is recognised before an error result. */
  function FormatSearchResults(result: Json, keywords: string, location: string, hash: Json -> int): (r: Result<MobileResult, PyError>)
    ensures !result.JObj? ==> r == Failure(AttributeError(TypeName(result), "get"))
    // a demo result: one job per listed job in order, total_jobs or the count
    ensures result.JObj? && IsDemoResult(result.fields) ==>
      (r.Success? <==> ListedJobs(result.fields).Success? && forall i :: 0 <= i < |ListedJobs(result.fields).value| ==> Formattable(Demo, ListedJobs(result.fields).value[i]))
    ensures result.JObj? && IsDemoResult(result.fields) && r.Success? ==>
      var jobs := ListedJobs(result.fields).value;
      && r.value.DemoPage? && r.value.Succeeded()
      && |r.value.jobs| == |jobs|
      && (forall i :: 0 <= i < |jobs| ==> FormatDemoJob(jobs[i], location, hash) == Success(r.value.jobs[i]))
      && r.value.totalResults == Get(result.fields, "total_jobs", JInt(|jobs|))
      && r.value.searchCriteria == Criteria(keywords, location)
      && r.value.message == Get(result.fields, "message", JStr(DemoDefaultMessage))
      && r.value.enhanced == Get(result.fields, "enhanced", JBool(false))
    // an error result that is not a demo result: failure flag, no jobs, zero total
    ensures result.JObj? && !IsDemoResult(result.fields) && "error" in result.fields ==>
      && r.Success? && r.value.ErrorPage? && !r.value.Succeeded()
      && r.value.JobList() == [] && r.value.Total() == JInt(0)
      && r.value.error == result.fields["error"]
      && r.value.message == Get(result.fields, "message", JStr(ErrorDefaultMessage))
    // a real result: one job per listed job in order, hits or the count, the criteria echoed
    ensures result.JObj? && !IsDemoResult(result.fields) && "error" !in result.fields ==>
      (r.Success? <==> ListedJobs(result.fields).Success? && forall i :: 0 <= i < |ListedJobs(result.fields).value| ==> Formattable(Real, ListedJobs(result.fields).value[i]))
    ensures result.JObj? && !IsDemoResult(result.fields) && "error" !in result.fields && r.Success? ==>
      var jobs := ListedJobs(result.fields).value;
      && r.value.ResultsPage? && r.value.Succeeded()
      && |r.value.jobs| == |jobs|
      && (forall i :: 0 <= i < |jobs| ==> FormatRealJob(jobs[i], location, hash) == Success(r.value.jobs[i]))
      && r.value.totalResults == Get(result.fields, "hits", JInt(|jobs|))
      && r.value.searchCriteria == Criteria(keywords, location)
  {
    if !result.JObj? then Failure(AttributeError(TypeName(result), "get"))
    else
      var m := result.fields;
      if IsDemoResult(m) then
        match ListedJobs(m)
        case Failure(e) => Failure(e)
        case Success(jobs) =>
          match FormatDemoJobs(jobs, location, hash)
          case Failure(e) => Failure(e)
          case Success(out) =>
            Success(DemoPage(out, Get(m, "total_jobs", JInt(|out|)), Criteria(keywords, location),
                             Get(m, "message", JStr(DemoDefaultMessage)), Get(m, "enhanced", JBool(false))))
      else if "error" in m then
        Success(ErrorPage(m["error"], Get(m, "message", JStr(ErrorDefaultMessage))))
      else
        match ListedJobs(m)
        case Failure(e) => Failure(e)
        case Success(jobs) =>
          match FormatRealJobs(jobs, location, hash)
          case Failure(e) => Failure(e)
          case Success(out) =>
            Success(ResultsPage(out, Get(m, "hits", JInt(|out|)), Criteria(keywords, location)))
  }
}

=== FILE: json.dfy ===
/** The Python values the backend passes around: JSON-like dicts, lists and scalars. */
module Json {
  import opened Wrappers

  /** A Python value of the shapes that flow through the backend (floats are not modelled).
      A dict is a `map`: the key order Python keeps is not modelled. */
  datatype Json =
    | JNull
    | JBool(b: bool)
    | JInt(i: int)
    | JStr(s: string)
    | JList(items: seq<Json>)
    | JObj(fields: map<string, Json>)

  /** `d.get(key, default)`: the default is used only when the key is absent. */
  function Get<V>(d: map<string, V>, key: string, default: V): (v: V)
    ensures key in d ==> v == d[key]
    ensures key !in d ==> v == default
  {
    if key in d then d[key] else default
  }

  /** Python's `type(v).__name__`, as it appears in error messages. */
  function TypeName(v: Json): string
  {
    match v
    case JNull => "NoneType"
    case JBool(_) => "bool"
    case JInt(_) => "int"
    case JStr(_) => "str"
    case JList(_) => "list"
    case JObj(_) => "dict"
  }

  /** Whether `hash(v)` succeeds: lists and dicts are unhashable. */
  predicate Hashable(v: Json)
  {
    !v.JList? && !v.JObj?
  }

  /** A list of Python strings. */
  function StrList(xs: seq<string>): (v: Json)
    ensures v.JList? && |v.items| == |xs|
    ensures forall i :: 0 <= i < |xs| ==> v.items[i] == JStr(xs[i])
  {
    JList(seq(|xs|, i requires 0 <= i < |xs| => JStr(xs[i])))
  }

  /** The exceptions the modelled code can raise, with CPython's message text. */
  datatype PyError =
    | AttributeError(typeName: string, attribute: string)
    | Unhashable(typeName: string)
    | NotIterable(typeName: string)
  {
    /** `str(e)` for the exception. */
    function Message(): string
    {
      match this
      case AttributeError(t, a) => "'" + t + "' object has no attribute '" + a + "'"
      case Unhashable(t) => "unhashable type: '" + t + "'"
      case NotIterable(t) => "'" + t + "' object is not iterable"
    }
  }
}

=== FILE: mcp_server.dfy ===
/** The two MCP tools: thin wrappers that fill in their own defaults and call the backend. */
module McpServer {
  import opened Wrappers
  import opened Json
  import opened Params
  import App

  /** The tool's own defaults for the identifying arguments; they differ from those of `search_jobs`. */
  const ToolUserAgent: string := "Mozilla/5.0 (compatible; MCP-CareerjetBot/1.0)"
  const ToolUrl: string := "http://example.com/jobsearch"

  /** The arguments of `search_jobs_tool`. The six optional ones are `None` when the caller leaves them out. */
  datatype ToolArgs = ToolArgs(
    keywords: string,
    location: string,
    locale: string,
    affid: string,
    userIp: string,
    userAgent: string,
    url: string,
    sort: Option<string>,
    startNum: Option<int>,
    pageSize: Option<int>,
    page: Option<int>,
    contractType: Option<string>,
    contractPeriod: Option<string>)

  /** A call that gives only the two required arguments. */
  function ToolCall(keywords: string, location: string): (t: ToolArgs)
    ensures t.locale == App.DefaultLocale && t.affid == App.DefaultAffid && t.userIp == App.DefaultUserIp
    ensures t.userAgent == ToolUserAgent && t.url == ToolUrl
    ensures t.sort.None? && t.startNum.None? && t.pageSize.None? && t.page.None?
    ensures t.contractType.None? && t.contractPeriod.None?
  {
    ToolArgs(keywords, location, App.DefaultLocale, App.DefaultAffid, App.DefaultUserIp, ToolUserAgent, ToolUrl,
      None, None, None, None, None, None)
  }

  /** Python truth of an optional string: present and non-empty. */
  predicate TruthyStr(o: Option<string>)
  {
    o.Some? && o.value != ""
  }

  /** Python truth of an optional integer: present and non-zero. */
  predicate TruthyInt(o: Option<int>)
  {
    o.Some? && o.value != 0
  }

  /** The entry an optional argument contributes to `optional_params`: its value when it is truthy,
      nothing when it is falsy or left out. Parameters that are not optional contribute nothing. */
  function OptionalArg(t: ToolArgs, k: Param): (v: Option<Json>)
    ensures v.Some? ==> App.ClientKey(k)
    ensures k.Sort? ==> (v.Some? <==> TruthyStr(t.sort)) && (v.Some? ==> v.value == JStr(t.sort.value))
    ensures k.StartNum? ==> (v.Some? <==> TruthyInt(t.startNum)) && (v.Some? ==> v.value == JInt(t.startNum.value))
    ensures k.PageSize? ==> (v.Some? <==> TruthyInt(t.pageSize)) && (v.Some? ==> v.value == JInt(t.pageSize.value))
    ensures k.Page? ==> (v.Some? <==> TruthyInt(t.page)) && (v.Some? ==> v.value == JInt(t.page.value))
    ensures k.ContractType? ==>
      (v.Some? <==> TruthyStr(t.contractType)) && (v.Some? ==> v.value == JStr(t.contractType.value))
    ensures k.ContractPeriod? ==>
      (v.Some? <==> TruthyStr(t.contractPeriod)) && (v.Some? ==> v.value == JStr(t.contractPeriod.value))
  {
    match k
    case Sort => if TruthyStr(t.sort) then Some(JStr(t.sort.value)) else None
    case StartNum => if TruthyInt(t.startNum) then Some(JInt(t.startNum.value)) else None
    case PageSize => if TruthyInt(t.pageSize) then Some(JInt(t.pageSize.value)) else None
    case Page => if TruthyInt(t.page) then Some(JInt(t.page.value)) else None
    case ContractType => if TruthyStr(t.contractType) then Some(JStr(t.contractType.value)) else None
    case ContractPeriod => if TruthyStr(t.contractPeriod) then Some(JStr(t.contractPeriod.value)) else None
    case _ => None
  }

  /** The optional parameters, in the order the tool tests them. */
  const OptionalNames: seq<Param> := [Sort, StartNum, PageSize, Page, ContractType, ContractPeriod]

  /** `optional_params`: each optional argument whose value is truthy, under its own name. */
  function OptionalParams(t: ToolArgs): (p: map<Param, Json>)
    ensures forall k :: k in p <==> OptionalArg(t, k).Some?
    ensures forall k :: k in p ==> p[k] == OptionalArg(t, k).value
    ensures forall k :: k in p ==> App.ClientKey(k)
    ensures Sort in p <==> TruthyStr(t.sort)
    ensures Sort in p ==> p[Sort] == JStr(t.sort.value)
    ensures StartNum in p <==> TruthyInt(t.startNum)
    ensures StartNum in p ==> p[StartNum] == JInt(t.startNum.value)
    ensures PageSize in p <==> TruthyInt(t.pageSize)
    ensures PageSize in p ==> p[PageSize] == JInt(t.pageSize.value)
    ensures Page in p <==> TruthyInt(t.page)
    ensures Page in p ==> p[Page] == JInt(t.page.value)
    ensures ContractType in p <==> TruthyStr(t.contractType)
    ensures ContractType in p ==> p[ContractType] == JStr(t.contractType.value)
    ensures ContractPeriod in p <==> TruthyStr(t.contractPeriod)
    ensures ContractPeriod in p ==> p[ContractPeriod] == JStr(t.contractPeriod.value)
  {
    assert forall k :: App.ClientKey(k) ==> k in OptionalNames;
    map k | k in OptionalNames && OptionalArg(t, k).Some? :: OptionalArg(t, k).value
  }

  /** The arguments `search_jobs_tool` hands to `search_jobs`. */
  function ToolSearchArgs(t: ToolArgs): (a: App.SearchArgs)
    ensures a.keywords == t.keywords && a.location == t.location && a.locale == t.locale
    ensures a.affid == t.affid && a.userIp == t.userIp && a.userAgent == t.userAgent && a.url == t.url
    ensures forall k :: k in a.kwargs <==> OptionalArg(t, k).Some?
    ensures a.kwargs == OptionalParams(t)
  {
    App.SearchArgs(t.keywords, t.location, t.locale, t.affid, t.userIp, t.userAgent, t.url, OptionalParams(t))
  }

  /** `search_jobs_tool`: whatever `search_jobs` answers for these arguments. */
  function SearchJobsTool(t: ToolArgs, env: App.Env): (r: Json)
    ensures r == App.SearchJobs(ToolSearchArgs(t), env)
  {
    App.SearchJobs(ToolSearchArgs(t), env)
  }

  /** The client receives the seven named arguments unchanged, and an optional argument exactly
      when it is truthy, with its value. */
  lemma ToolClientParams(t: ToolArgs)
    ensures var p := App.ClientParams(ToolSearchArgs(t));
      && (forall k :: k in p <==> App.ClientBaseKey(k) || OptionalArg(t, k).Some?)
      && (forall k :: OptionalArg(t, k).Some? ==> k in p && p[k] == OptionalArg(t, k).value)
      && p[Keywords] == JStr(t.keywords) && p[Location] == JStr(t.location)
      && p[Affid] == JStr(t.affid) && p[UserIp] == JStr(t.userIp)
      && p[UserAgent] == JStr(t.userAgent) && p[Url] == JStr(t.url)
  {
    ClientParamsOf(ToolSearchArgs(t), OptionalParams(t));
  }

  /** `ClientParams` when every keyword argument is one the client path copies. */
  lemma ClientParamsOf(a: App.SearchArgs, kwargs: map<Param, Json>)
    requires a.kwargs == kwargs
    requires forall k :: k in kwargs ==> App.ClientKey(k)
    ensures forall k :: k in App.ClientParams(a) <==> App.ClientBaseKey(k) || k in kwargs
    ensures forall k :: k in kwargs ==> App.ClientParams(a)[k] == kwargs[k]
  {
  }

  /** The direct fallback sends the contract type and the page exactly when they are truthy,
      and never the sort order, the offset, the page size or the contract period. */
  lemma ToolDirectParams(t: ToolArgs)
    ensures var p := App.DirectParams(ToolSearchArgs(t));
      && (forall k :: k in p <==> App.DirectBaseKey(k) || ((k.ContractType? || k.Page?) && OptionalArg(t, k).Some?))
      && p[Keywords] == JStr(t.keywords) && p[Location] == JStr(t.location) && p[ApiKey] == JStr(t.affid)
  {
    DirectParamsOf(ToolSearchArgs(t), OptionalParams(t));
  }

  /** `DirectParams` when every keyword argument is one the client path copies and none is None. */
  lemma DirectParamsOf(a: App.SearchArgs, kwargs: map<Param, Json>)
    requires a.kwargs == kwargs
    requires forall k :: k in kwargs ==> App.ClientKey(k) && kwargs[k] != JNull
    ensures forall k :: k in App.DirectParams(a) <==> App.DirectBaseKey(k) || (k in kwargs && App.DirectKey(k))
  {
  }

  /** A falsy optional argument is the same as leaving it out. */
  function Normalized(t: ToolArgs): (n: ToolArgs)
    ensures n.keywords == t.keywords && n.location == t.location && n.locale == t.locale
    ensures n.affid == t.affid && n.userIp == t.userIp && n.userAgent == t.userAgent && n.url == t.url
    ensures forall k :: OptionalArg(n, k) == OptionalArg(t, k)
    ensures n.sort.Some? ==> TruthyStr(n.sort)
    ensures n.startNum.Some? ==> TruthyInt(n.startNum)
    ensures n.pageSize.Some? ==> TruthyInt(n.pageSize)
    ensures n.page.Some? ==> TruthyInt(n.page)
    ensures n.contractType.Some? ==> TruthyStr(n.contractType)
    ensures n.contractPeriod.Some? ==> TruthyStr(n.contractPeriod)
  {
    t.(sort := NormalStr(t.sort), startNum := NormalInt(t.startNum), pageSize := NormalInt(t.pageSize),
       page := NormalInt(t.page), contractType := NormalStr(t.contractType), contractPeriod := NormalStr(t.contractPeriod))
  }

  /** A falsy optional string becomes `None`. */
  function NormalStr(o: Option<string>): (r: Option<string>)
    ensures TruthyStr(r) <==> TruthyStr(o)
    ensures r.Some? ==> r == o && TruthyStr(r)
  {
    if TruthyStr(o) then o else None
  }

  /** A falsy optional integer becomes `None`. */
  function NormalInt(o: Option<int>): (r: Option<int>)
    ensures TruthyInt(r) <==> TruthyInt(o)
    ensures r.Some? ==> r == o && TruthyInt(r)
  {
    if TruthyInt(o) then o else None
  }

  /** An empty string or a zero given for an optional argument changes nothing: the tool answers
      as if the argument had been left out. */
  lemma FalsyArgumentsIgnored(t: ToolArgs, env: App.Env)
    ensures SearchJobsTool(t, env) == SearchJobsTool(Normalized(t), env)
  {
    var n := Normalized(t);
    SameOptionalParams(t, n);
    assert ToolSearchArgs(t) == ToolSearchArgs(n);
  }

  /** Tool calls whose optional arguments contribute the same entries send the same optional parameters. */
  lemma SameOptionalParams(t: ToolArgs, u: ToolArgs)
    requires forall k :: OptionalArg(t, k) == OptionalArg(u, k)
    ensures OptionalParams(t) == OptionalParams(u)
  {
    var p, q := OptionalParams(t), OptionalParams(u);
    assert forall k :: k in p <==> k in q;
  }

  /** Both backend paths identify themselves with the user agent the tool was given. */
  lemma ToolUserAgentSent(t: ToolArgs)
    ensures App.ClientParams(ToolSearchArgs(t))[UserAgent] == JStr(t.userAgent)
    ensures App.DirectRequest(ToolSearchArgs(t)).headers["User-Agent"] == t.userAgent
  {
  }

  /** Through the tool, both backend paths identify themselves with the tool's user agent,
      not with the shorter default of `search_jobs`. */
  lemma ToolCallUserAgent(keywords: string, location: string)
    ensures App.ClientParams(ToolSearchArgs(ToolCall(keywords, location)))[UserAgent] == JStr(ToolUserAgent)
    ensures App.DirectRequest(ToolSearchArgs(ToolCall(keywords, location))).headers["User-Agent"] == ToolUserAgent
    ensures ToolUserAgent != App.DefaultUserAgent
  {
    ToolUserAgentSent(ToolCall(keywords, location));
    assert |ToolUserAgent| != |App.DefaultUserAgent|;
  }

  /** `get_job_details_tool`: the placeholder answer of `get_job_details`, which echoes the URL. */
  function GetJobDetailsTool(jobUrl: string, locale: string, env: App.Env): (r: Json)
    ensures r == App.GetJobDetails(jobUrl, locale, env)
    ensures r.JObj?
    ensures env.requestsInstalled ==> "job_url" in r.fields && r.fields["job_url"] == JStr(jobUrl) && "error" !in r.fields
    ensures !env.requestsInstalled ==> "error" in r.fields
  {
    App.GetJobDetails(jobUrl, locale, env)
  }

  /** Leaving out the locale, which defaults to `en_US`, gives the same answer as any other locale. */
  lemma DefaultLocaleIrrelevant(jobUrl: string, locale: string, env: App.Env)
    ensures GetJobDetailsTool(jobUrl, App.DefaultLocale, env) == GetJobDetailsTool(jobUrl, locale, env)
  {
    App.JobDetailsIgnoreLocale(jobUrl, App.DefaultLocale, locale, env);
  }
}

=== FILE: params.dfy ===
/** The names of the search parameters that the backend passes as keyword arguments and
    sends as query parameters. */
module Params {

  /** A parameter name. The names the backend knows have their own constructor; any other
      keyword argument is `Other`. The model does not require an `Other` name to differ from the
      known ones. */
  datatype Param =
    | Keywords | Location | Affid | UserIp | UserAgent | Url | ApiKey
    | Sort | StartNum | PageSize | Page | ContractType | ContractPeriod | Salary
    | Other(name: string)
  {
    /** The name as it appears in Python and on the wire. */
    function Name(): string
    {
      match this
      case Keywords => "keywords"
      case Location => "location"
      case Affid => "affid"
      case UserIp => "user_ip"
      case UserAgent => "user_agent"
      case Url => "url"
      case ApiKey => "apikey"
      case Sort => "sort"
      case StartNum => "start_num"
      case PageSize => "pagesize"
      case Page => "page"
      case ContractType => "contracttype"
      case ContractPeriod => "contractperiod"
      case Salary => "salary"
      case Other(n) => n
    }
  }
}

=== FILE: pyint.dfy ===
/** Python's `str(n)` and `int(s)` for decimal integers. */
module PyInt {
  import opened Wrappers
  import opened PyStr

  predicate IsDigit(c: char)
  {
    '0' <= c <= '9'
  }

  function DigitChar(d: int): (c: char)
    requires 0 <= d < 10
    ensures IsDigit(c) && c as int - '0' as int == d
  {
    ('0' as int + d) as char
  }

  /** Decimal digits of `n` without leading zeros, as `str(n)` writes a non-negative integer. */
  function NatToString(n: nat): (r: string)
    ensures |r| >= 1
    ensures forall i :: 0 <= i < |r| ==> IsDigit(r[i])
    ensures r[0] == '0' ==> n == 0
  {
    if n < 10 then [DigitChar(n)] else NatToString(n / 10) + [DigitChar(n % 10)]
  }

  /** `str(n)`: a minus sign before the digits of a negative number. */
  function IntToString(n: int): (r: string)
    ensures |r| >= 1
    ensures n < 0 <==> r[0] == '-'
    ensures n < 0 ==> |r| >= 2
    ensures forall i :: (if n < 0 then 1 else 0) <= i < |r| ==> IsDigit(r[i])
    ensures r[if n < 0 then 1 else 0] == '0' ==> n == 0
  {
    if n < 0 then "-" + NatToString(-n) else NatToString(n)
  }

  /** A digit run as `int()` accepts it: digits, where a single `_` may separate two digits. */
  predicate IsDigitPart(s: string)
  {
    && |s| > 0
    && IsDigit(s[0])
    && IsDigit(s[|s| - 1])
    && forall i :: 0 <= i < |s| ==> IsDigit(s[i]) || (s[i] == '_' && i + 1 < |s| && IsDigit(s[i + 1]))
  }

  /** The value of a digit run, with underscores ignored. */
  function DigitsValue(s: string): nat
  {
    if |s| == 0 then 0
    else if IsDigit(s[|s| - 1]) then 10 * DigitsValue(s[..|s| - 1]) + (s[|s| - 1] as int - '0' as int)
    else DigitsValue(s[..|s| - 1])
  }

  /** `t` is an optional sign followed by a digit run, and `v` is the value it spells. */
  predicate SpellsInt(t: string, v: int)
  {
    || (IsDigitPart(t) && v == DigitsValue(t))
    || (|t| > 0 && t[0] == '+' && IsDigitPart(t[1..]) && v == DigitsValue(t[1..]))
    || (|t| > 0 && t[0] == '-' && IsDigitPart(t[1..]) && v == 0 - DigitsValue(t[1..]) as int)
  }

  /** The whitespace `int()` skips around the number. CPython first turns every non-ASCII whitespace
      character into a space and then skips ASCII whitespace only, so the separators U+001C..U+001F,
      which `isspace()` accepts, are not skipped. */
  predicate IntSpace(c: char)
  {
    IsSpace(c) && !('\U{1C}' <= c <= '\U{1F}')
  }

  /** The text `int()` parses: `s` without the whitespace `int()` skips at either end. */
  function IntStrip(s: string): (r: string)
    ensures LeadingCount(s, IntSpace) + |r| <= |s|
    ensures r == [] || (!IntSpace(r[0]) && !IntSpace(r[|r| - 1]))
    ensures forall j :: 0 <= j < |r| ==> r[j] == s[LeadingCount(s, IntSpace) + j]
    ensures forall j :: 0 <= j < LeadingCount(s, IntSpace) ==> IntSpace(s[j])
    ensures forall j :: LeadingCount(s, IntSpace) + |r| <= j < |s| ==> IntSpace(s[j])
  {
    var t := s[LeadingCount(s, IntSpace)..];
    t[..|t| - TrailingCount(t, IntSpace)]
  }

  /** A character that `int()` does not skip is part of the text it parses. */
  lemma KeptByIntStrip(s: string, i: int) returns (j: int)
    requires 0 <= i < |s| && !IntSpace(s[i])
    ensures 0 <= j < |IntStrip(s)| && IntStrip(s)[j] == s[i]
  {
    var l := LeadingCount(s, IntSpace);
    var t := s[l..];
    var n := TrailingCount(t, IntSpace);
    assert IntStrip(s) == t[..|t| - n];
    j := i - l;
    assert t[j] == s[i];
  }

  /** Text that neither starts nor ends with whitespace is parsed as it stands. */
  lemma IntStripUnchanged(s: string)
    requires s == [] || (!IntSpace(s[0]) && !IntSpace(s[|s| - 1]))
    ensures IntStrip(s) == s
  {
  }

  /** `int(s)` with base 10: whitespace around, an optional sign, then a digit run;
      `None` where Python raises `ValueError`. */
  function ParseInt(s: string): (r: Option<int>)
    ensures r.Some? ==> SpellsInt(IntStrip(s), r.value)
    ensures forall v :: SpellsInt(IntStrip(s), v) ==> r == Some(v)
    ensures r.Some? && r.value < 0 ==> |IntStrip(s)| > 0 && IntStrip(s)[0] == '-'
    ensures AllSpace(s) ==> r.None?
  {
    var t := IntStrip(s);
    assert t != [] ==> t[0] == s[LeadingCount(s, IntSpace) + 0];
    ParseSigned(t)
  }

  /** The text `int` sees once the surrounding whitespace is gone: an optional sign, then a digit run. */
  function ParseSigned(t: string): (r: Option<int>)
    ensures r.Some? ==> SpellsInt(t, r.value)
    ensures forall v :: SpellsInt(t, v) ==> r == Some(v)
    ensures r.Some? ==> |t| > 0 && (IsDigit(t[0]) || t[0] == '+' || t[0] == '-')
    ensures r.Some? && r.value < 0 ==> |t| > 0 && t[0] == '-'
    ensures t == [] ==> r.None?
  {
    if |t| > 0 && t[0] == '-' then
      if IsDigitPart(t[1..]) then Some(0 - DigitsValue(t[1..]) as int) else None
    else if |t| > 0 && t[0] == '+' then
      if IsDigitPart(t[1..]) then Some(DigitsValue(t[1..])) else None
    else if IsDigitPart(t) then Some(DigitsValue(t))
    else None
  }

  lemma {:induction false} NatToStringValue(n: nat)
    ensures IsDigitPart(NatToString(n))
    ensures DigitsValue(NatToString(n)) == n
  {
    var r := NatToString(n);
    if n >= 10 {
      NatToStringValue(n / 10);
      assert r[..|r| - 1] == NatToString(n / 10);
    }
  }

  /** `int(str(n)) == n` for every integer. */
  lemma ParseIntRoundTrip(n: int)
    ensures ParseInt(IntToString(n)) == Some(n)
  {
    var s := IntToString(n);
    var digits := NatToString(if n < 0 then -n else n);
    NatToStringValue(if n < 0 then -n else n);
    if n < 0 {
      assert s == "-" + digits && s[1..] == digits;
    } else {
      assert s == digits;
    }
    assert ParseSigned(s) == Some(n);
    IntStripUnchanged(s);
  }

  /** Only digits, underscores and signs can appear in the text of an integer. */
  lemma SpelledWith(t: string, v: int, j: int)
    requires SpellsInt(t, v) && 0 <= j < |t|
    ensures IsDigit(t[j]) || t[j] == '_' || t[j] == '+' || t[j] == '-'
  {
    if IsDigitPart(t) {
      assert IsDigit(t[j]) || (t[j] == '_' && j + 1 < |t| && IsDigit(t[j + 1]));
    } else if j > 0 {
      assert t[j] == t[1..][j - 1];
      var d := t[1..];
      assert IsDigit(d[j - 1]) || (d[j - 1] == '_' && j < |d| && IsDigit(d[j]));
    }
  }

  /** Text holding a character that is neither skipped whitespace, a digit, `_` nor a sign is not an
      integer: `int("abc")`, `int("1.5")` and `int("\x1c5")` raise. */
  lemma NonNumericFails(s: string, i: int)
    requires 0 <= i < |s| && !IntSpace(s[i]) && !IsDigit(s[i]) && s[i] != '_' && s[i] != '+' && s[i] != '-'
    ensures ParseInt(s) == None
  {
    var j := KeptByIntStrip(s, i);
    if ParseInt(s).Some? {
      SpelledWith(IntStrip(s), ParseInt(s).value, j);
    }
  }

  /** Whitespace inside the number is not skipped: `int("5 5")` raises. */
  lemma InteriorSpaceFails()
    ensures ParseInt("5 5") == None
  {
    var s := "5 5";
    var r := IntStrip(s);
    assert LeadingCount(s, IntSpace) == 0;
    assert r[0] == '5' && r[|r| - 1] == '5' && r[1] == ' ';
  }

  /** `int()` does not skip the separator U+001C that `strip()` removes: `"\x1c5".strip()` is "5",
      but `int("\x1c5")` raises. */
  lemma SeparatorNotSkipped()
    ensures Strip("\U{1C}5") == "5"
    ensures ParseInt("\U{1C}5") == None
  {
    var s := "\U{1C}5";
    NonNumericFails(s, 0);
    assert s[1..] == "5";
    assert LeadingCount(s, IsSpace) == 1 + LeadingCount("5", IsSpace);
    assert TrimLeft(s) == "5";
    assert TrailingCount("5", IsSpace) == 0;
  }
}

=== FILE: pystr.dfy ===
/** The Python `str` operations the backend relies on: `strip()`, `lower()` and `in`. */
module PyStr {

  /** `c.isspace()` in Python 3: the characters `str.strip()` discards. */
  predicate IsSpace(c: char)
  {
    || '\t' <= c <= '\r'
    || '\U{1C}' <= c <= '\U{1F}'
    || c == ' '
    || c == '\U{85}'
    || c == '\U{A0}'
    || c == '\U{1680}'
    || '\U{2000}' <= c <= '\U{200A}'
    || c == '\U{2028}'
    || c == '\U{2029}'
    || c == '\U{202F}'
    || c == '\U{205F}'
    || c == '\U{3000}'
  }

  predicate AllSpace(s: string)
  {
    forall i :: 0 <= i < |s| ==> IsSpace(s[i])
  }

  /** Drops leading whitespace: the result is a suffix of `s` and everything dropped is whitespace. */
  function TrimLeft(s: string): (r: string)
    ensures |r| <= |s| && r == s[|s| - |r|..]
    ensures AllSpace(s[..|s| - |r|])
    ensures r == [] || !IsSpace(r[0])
  {
    s[LeadingCount(s, IsSpace)..]
  }

  /** The number of characters satisfying `skip` that `s` starts with. */
  function LeadingCount(s: string, skip: char -> bool): (n: nat)
    ensures n <= |s|
    ensures forall i :: 0 <= i < n ==> skip(s[i])
    ensures n < |s| ==> !skip(s[n])
  {
    if |s| > 0 && skip(s[0]) then 1 + LeadingCount(s[1..], skip) else 0
  }

  /** Drops trailing whitespace: the result is a prefix of `s` and everything dropped is whitespace. */
  function TrimRight(s: string): (r: string)
    ensures |r| <= |s| && r == s[..|r|]
    ensures AllSpace(s[|r|..])
    ensures r == [] || !IsSpace(r[|r| - 1])
  {
    s[..|s| - TrailingCount(s, IsSpace)]
  }

  /** The number of characters satisfying `skip` that `s` ends with. */
  function TrailingCount(s: string, skip: char -> bool): (n: nat)
    ensures n <= |s|
    ensures forall i :: |s| - n <= i < |s| ==> skip(s[i])
    ensures n < |s| ==> !skip(s[|s| - n - 1])
  {
    if |s| > 0 && skip(s[|s| - 1]) then 1 + TrailingCount(s[..|s| - 1], skip) else 0
  }

  /** `s[k..k + |p|] == p`: the string `p` occurs in `s` starting at position `k`. */
  predicate OccursAt(s: string, p: string, k: int)
  {
    0 <= k <= |s| - |p| && s[k..k + |p|] == p
  }

  /** `s.strip()`: what is left after removing whitespace at both ends. */
  function Strip(s: string): (r: string)
    ensures |r| <= |s|
    ensures r == [] || (!IsSpace(r[0]) && !IsSpace(r[|r| - 1]))
  {
    TrimRight(TrimLeft(s))
  }

  /** `strip()` removes only whitespace, and only at the ends: the result occurs in `s`
      with nothing but whitespace before and after it. */
  lemma StripIsInfix(s: string)
    ensures var r := Strip(s);
      exists k :: OccursAt(s, r, k) && AllSpace(s[..k]) && AllSpace(s[k + |r|..])
  {
    var t := TrimLeft(s);
    var r := TrimRight(t);
    var k := |s| - |t|;
    assert s[k..][..|r|] == r;
    assert s[k + |r|..] == t[|r|..];
    assert OccursAt(s, r, k);
  }

  /** A character that is not whitespace survives `strip()`: it is found at some position `j` of the result. */
  lemma KeptByStrip(s: string, i: int) returns (j: int)
    requires 0 <= i < |s| && !IsSpace(s[i])
    ensures 0 <= j < |Strip(s)| && Strip(s)[j] == s[i]
  {
    var l := LeadingCount(s, IsSpace);
    var t := s[l..];
    var n := TrailingCount(t, IsSpace);
    assert Strip(s) == t[..|t| - n];
    j := i - l;
    assert t[j] == s[i];
  }

  /** `s.strip()` is empty exactly when `s` is all whitespace (so `not s.strip()` tests that). */
  lemma StripEmptyIff(s: string)
    ensures Strip(s) == [] <==> AllSpace(s)
  {
  }

  /** A string that neither starts nor ends with whitespace is unchanged by `strip()`. */
  lemma StripUnchanged(s: string)
    requires s == [] || (!IsSpace(s[0]) && !IsSpace(s[|s| - 1]))
    ensures Strip(s) == s
  {
  }

  /** `strip()` is idempotent. */
  lemma StripIdempotent(s: string)
    ensures Strip(Strip(s)) == Strip(s)
  {
    StripUnchanged(Strip(s));
  }

  /** `c.lower()` restricted to ASCII: 'A'..'Z' map to 'a'..'z', every other character is kept. */
  function LowerChar(c: char): char
  {
    if 'A' <= c <= 'Z' then (c as int + 32) as char else c
  }

  /** `s.lower()` restricted to ASCII letters. */
  function Lower(s: string): (r: string)
    ensures |r| == |s|
    ensures forall i :: 0 <= i < |s| ==> r[i] == LowerChar(s[i])
  {
    seq(|s|, i requires 0 <= i < |s| => LowerChar(s[i]))
  }

  /** Python's `s[:n]`, on a string or a list: the first `n` items, or all of them when there are fewer. */
  function FirstN<T>(s: seq<T>, n: nat): (r: seq<T>)
    ensures r <= s
    ensures |r| == if |s| < n then |s| else n
  {
    s[..if |s| < n then |s| else n]
  }

  predicate IsPrefix(p: string, s: string)
  {
    |p| <= |s| && s[..|p|] == p
  }

  /** `p in s` for strings: `p` occurs in `s` as a contiguous substring. */
  predicate Contains(s: string, p: string)
    decreases |s|
  {
    IsPrefix(p, s) || (|s| > 0 && Contains(s[1..], p))
  }

  /** The recursive test agrees with the positional definition of a substring. */
  lemma {:induction false} ContainsIff(s: string, p: string)
    ensures Contains(s, p) <==> exists k :: OccursAt(s, p, k)
    decreases |s|
  {
    if IsPrefix(p, s) {
      assert OccursAt(s, p, 0);
    } else if |s| > 0 {
      ContainsIff(s[1..], p);
      if Contains(s[1..], p) {
        var k :| OccursAt(s[1..], p, k);
        assert s[1..][k..k + |p|] == s[k + 1..k + 1 + |p|];
        assert OccursAt(s, p, k + 1);
      }
      if exists k :: OccursAt(s, p, k) {
        var k :| OccursAt(s, p, k);
        assert k != 0;
        assert s[1..][k - 1..k - 1 + |p|] == s[k..k + |p|];
        assert OccursAt(s[1..], p, k - 1);
      }
    }
  }

  /** A string contains every string that ends it. */
  lemma ContainsSuffix(pre: string, s: string)
    ensures Contains(pre + s, s)
  {
    assert (pre + s)[|pre|..|pre| + |s|] == s;
    assert OccursAt(pre + s, s, |pre|);
    ContainsIff(pre + s, s);
  }
}

=== FILE: skills.dfy ===
/** api_server.py: `extract_requirements` and `format_contract_type`, the two lookups used when
    job records are shaped for the mobile application. */
module Skills {
  import opened PyStr

  /** The vocabulary `extract_requirements` searches for, in the order it searches. */
  const CommonSkills: seq<string> := [
    "Python", "JavaScript", "React", "Node.js", "Java", "C#", "PHP",
    "HTML", "CSS", "SQL", "MongoDB", "PostgreSQL", "Git", "Docker",
    "AWS", "Azure", "Linux", "Windows", "API", "REST", "GraphQL"]

  /** What `extract_requirements` answers when no skill of the vocabulary is mentioned. */
  const DefaultRequirements: seq<string> := ["İlgili alanda deneyim", "Takım çalışması", "İletişim becerileri"]

  /** At most this many requirements are reported. */
  const MaxRequirements: nat := 5

  /** `skill.lower() in description_lower`. */
  predicate Mentions(descriptionLower: string, skill: string)
  {
    Contains(descriptionLower, Lower(skill))
  }

  predicate Distinct(s: seq<string>)
  {
    forall i, j :: 0 <= i < j < |s| ==> s[i] != s[j]
  }

  /** Position of the first occurrence of `x` in `s`. */
  function IndexOf(s: seq<string>, x: string): (k: nat)
    requires x in s
    ensures k < |s| && s[k] == x
    ensures forall j :: 0 <= j < k ==> s[j] != x
  {
    if s[0] == x then 0 else 1 + IndexOf(s[1..], x)
  }

  /** The skills of `skills` that the lower-cased description mentions, in the order of `skills`. */
  function MatchingSkills(skills: seq<string>, descriptionLower: string): (r: seq<string>)
    ensures |r| <= |skills|
    ensures forall x :: x in r <==> x in skills && Mentions(descriptionLower, x)
  {
    if |skills| == 0 then []
    else if Mentions(descriptionLower, skills[0]) then [skills[0]] + MatchingSkills(skills[1..], descriptionLower)
    else MatchingSkills(skills[1..], descriptionLower)
  }

  /** Every element of `s` is in `skills`, and `s` lists them in increasing position in `skills`. */
  predicate InListOrder(s: seq<string>, skills: seq<string>)
  {
    && (forall x :: x in s ==> x in skills)
    && forall i, j :: 0 <= i < j < |s| ==> IndexOf(skills, s[i]) < IndexOf(skills, s[j])
  }

  /** The matches of a list without duplicates keep the list's order and have no duplicates. */
  lemma MatchingSkillsOrdered(skills: seq<string>, descriptionLower: string)
    requires Distinct(skills)
    ensures Distinct(MatchingSkills(skills, descriptionLower))
    ensures InListOrder(MatchingSkills(skills, descriptionLower), skills)
  {
    MatchingSkillsSorted(skills, descriptionLower);
  }

  /** The matches of a list without duplicates come in strictly increasing list position. */
  lemma {:induction false} MatchingSkillsSorted(skills: seq<string>, descriptionLower: string)
    requires Distinct(skills)
    ensures InListOrder(MatchingSkills(skills, descriptionLower), skills)
  {
    if |skills| > 0 {
      var rest := MatchingSkills(skills[1..], descriptionLower);
      assert Distinct(skills[1..]);
      MatchingSkillsSorted(skills[1..], descriptionLower);
      if Mentions(descriptionLower, skills[0]) {
        OrderedCons(skills, rest);
      } else {
        OrderedInTail(skills, rest);
      }
    }
  }

  /** A list in the order of the tail of `skills` is in the order of `skills`. */
  lemma OrderedInTail(skills: seq<string>, s: seq<string>)
    requires Distinct(skills) && |skills| > 0
    requires InListOrder(s, skills[1..])
    ensures InListOrder(s, skills)
  {
    forall x | x in s
      ensures x in skills
    {
      IndexOfTail(skills, x);
    }
    forall i, j | 0 <= i < j < |s|
      ensures IndexOf(skills, s[i]) < IndexOf(skills, s[j])
    {
      IndexOfTail(skills, s[i]);
      IndexOfTail(skills, s[j]);
    }
  }

  /** Putting the head of `skills` before a list in the order of its tail keeps the order of `skills`. */
  lemma OrderedCons(skills: seq<string>, s: seq<string>)
    requires Distinct(skills) && |skills| > 0
    requires InListOrder(s, skills[1..])
    ensures InListOrder([skills[0]] + s, skills)
  {
    OrderedInTail(skills, s);
    var r := [skills[0]] + s;
    forall i, j | 0 <= i < j < |r|
      ensures IndexOf(skills, r[i]) < IndexOf(skills, r[j])
    {
      assert r[j] == s[j - 1];
      IndexOfTail(skills, s[j - 1]);
      if i > 0 {
        assert r[i] == s[i - 1];
      }
    }
  }

  /** In a list without duplicates, an element of the tail sits one place further than in the tail. */
  lemma IndexOfTail(skills: seq<string>, x: string)
    requires Distinct(skills) && |skills| > 0 && x in skills[1..]
    ensures x in skills && IndexOf(skills, x) == 1 + IndexOf(skills[1..], x)
  {
    var k :| 0 <= k < |skills| - 1 && skills[1..][k] == x;
    assert skills[k + 1] == x;
  }

  /** `extract_requirements(description)`: the mentioned vocabulary skills, at most five,
      or the three default requirements when none is mentioned. */
  function ExtractRequirements(description: string): (r: seq<string>)
    ensures 1 <= |r| <= MaxRequirements
    ensures r == DefaultRequirements <==> forall skill :: skill in CommonSkills ==> !Mentions(Lower(description), skill)
    ensures r != DefaultRequirements ==> forall x :: x in r ==> x in CommonSkills && Mentions(Lower(description), x)
  {
    var found := MatchingSkills(CommonSkills, Lower(description));
    var r := if |found| == 0 then DefaultRequirements else FirstN(found, MaxRequirements);
    assert |found| > 0 ==> found[0] in found && r[0] == found[0];
    assert DefaultRequirements[0] !in CommonSkills;
    r
  }

  /** The vocabulary lists every skill once. */
  lemma CommonSkillsDistinct()
    ensures Distinct(CommonSkills)
  {
    assert CommonSkills == SkillsFront + SkillsBack;
    assert Distinct(SkillsFront);
    assert Distinct(SkillsBack);
    HalvesDisjoint();
    DistinctConcat(SkillsFront, SkillsBack);
  }

  // The vocabulary cut in two, so that its distinctness is checked in three small steps.
  const SkillsFront: seq<string> := ["Python", "JavaScript", "React", "Node.js", "Java", "C#", "PHP", "HTML", "CSS", "SQL"]
  const SkillsBack: seq<string> := ["MongoDB", "PostgreSQL", "Git", "Docker", "AWS", "Azure", "Linux", "Windows", "API", "REST", "GraphQL"]

  lemma HalvesDisjoint()
    ensures forall x :: x in SkillsFront ==> x !in SkillsBack
  {
  }

  /** Two lists without duplicates and without common elements concatenate to a list without duplicates. */
  lemma DistinctConcat(a: seq<string>, b: seq<string>)
    requires Distinct(a) && Distinct(b) && forall x :: x in a ==> x !in b
    ensures Distinct(a + b)
  {
    var s := a + b;
    forall i, j | 0 <= i < j < |s|
      ensures s[i] != s[j]
    {
      if j < |a| {
        assert s[i] == a[i] && s[j] == a[j];
      } else if i >= |a| {
        assert s[i] == b[i - |a|] && s[j] == b[j - |a|];
      } else {
        assert s[i] == a[i] && a[i] in a && s[j] == b[j - |a|] && b[j - |a|] in b;
      }
    }
  }

  /** No skill of `skills` mentioned in the description is left out of `r` while a later one is in it. */
  predicate NoSkippedMatch(r: seq<string>, skills: seq<string>, descriptionLower: string)
  {
    forall x, y ::
      (x in r && x in skills && y in skills && Mentions(descriptionLower, y)
       && IndexOf(skills, y) < IndexOf(skills, x)) ==> y in r
  }

  /** The first `n` matches of a list without duplicates: no duplicates, in list order, no mentioned
      skill skipped in favour of a later one, and all mentioned skills when fewer than `n` are listed. */
  lemma FirstMatchesOrdered(skills: seq<string>, descriptionLower: string, n: nat)
    requires Distinct(skills)
    ensures Distinct(FirstN(MatchingSkills(skills, descriptionLower), n))
    ensures InListOrder(FirstN(MatchingSkills(skills, descriptionLower), n), skills)
    ensures NoSkippedMatch(FirstN(MatchingSkills(skills, descriptionLower), n), skills, descriptionLower)
    ensures |FirstN(MatchingSkills(skills, descriptionLower), n)| < n ==>
      forall y :: y in skills && Mentions(descriptionLower, y) ==> y in FirstN(MatchingSkills(skills, descriptionLower), n)
  {
    var found := MatchingSkills(skills, descriptionLower);
    var r := FirstN(found, n);
    MatchingSkillsOrdered(skills, descriptionLower);
    forall x, y | x in r && x in skills && y in skills && Mentions(descriptionLower, y) && IndexOf(skills, y) < IndexOf(skills, x)
      ensures y in r
    {
      PrefixKeepsEarlier(skills, found, r, x, y);
    }
    if |r| < n {
      assert r == found;
    }
  }

  /** A prefix of a list in `skills` order holds every element of the list that comes before one of its own. */
  lemma PrefixKeepsEarlier(skills: seq<string>, s: seq<string>, prefix: seq<string>, x: string, y: string)
    requires InListOrder(s, skills)
    requires prefix <= s && x in prefix && y in s && x in skills && y in skills
    requires IndexOf(skills, y) < IndexOf(skills, x)
    ensures y in prefix
  {
    var j :| 0 <= j < |prefix| && prefix[j] == x;
    var i :| 0 <= i < |s| && s[i] == y;
    IndexOrderIsPositionOrder(skills, s, i, j);
    assert prefix[i] == y;
  }

  /** In a list in `skills` order, a smaller position in `skills` means an earlier element. */
  lemma IndexOrderIsPositionOrder(skills: seq<string>, s: seq<string>, i: nat, j: nat)
    requires InListOrder(s, skills)
    requires i < |s| && j < |s| && IndexOf(skills, s[i]) < IndexOf(skills, s[j])
    ensures i < j
  {
  }

  /** The requirements found in a description come in vocabulary order without duplicates; no mentioned
      skill is skipped in favour of a later one; and fewer than five means every mentioned skill is listed. */
  lemma ExtractRequirementsOrder(description: string)
    requires exists skill :: skill in CommonSkills && Mentions(Lower(description), skill)
    ensures Distinct(ExtractRequirements(description))
    ensures InListOrder(ExtractRequirements(description), CommonSkills)
    ensures NoSkippedMatch(ExtractRequirements(description), CommonSkills, Lower(description))
    ensures |ExtractRequirements(description)| < MaxRequirements ==>
      forall y :: y in CommonSkills && Mentions(Lower(description), y) ==> y in ExtractRequirements(description)
  {
    CommonSkillsDistinct();
    FirstMatchesOrdered(CommonSkills, Lower(description), MaxRequirements);
    ExtractedAreFirstMatches(description);
  }

  /** When some skill is mentioned, the requirements are the first five matches. */
  lemma ExtractedAreFirstMatches(description: string)
    requires exists skill :: skill in CommonSkills && Mentions(Lower(description), skill)
    ensures ExtractRequirements(description) == FirstN(MatchingSkills(CommonSkills, Lower(description)), MaxRequirements)
  {
  }

  const FullTime: string := "Tam Zamanlı"
  const Contract: string := "Sözleşmeli"
  const Temporary: string := "Geçici"
  const PartTime: string := "Yarı Zamanlı"

  /** `format_contract_type(code)`: the Turkish label of a Careerjet contract code. */
  function FormatContractType(code: string): (text: string)
    ensures text == Contract <==> code == "c"
    ensures text == Temporary <==> code == "t"
    ensures text == PartTime <==> code == "part"
    ensures text == FullTime <==> code != "c" && code != "t" && code != "part"
  {
    var table := map["p" := FullTime, "c" := Contract, "t" := Temporary, "f" := FullTime, "part" := PartTime];
    if code in table then table[code] else FullTime
  }
}

=== FILE: wrappers.dfy ===
/** Option and Result values used wherever the Python code returns None or raises. */
module Wrappers {

  /** A value that may be absent (Python's `None`, or a dict key that is missing). */
  datatype Option<+T> = None | Some(value: T)

  /** Either a computed value or the error a Python call would have raised. */
  datatype Result<+T, +E> = Success(value: T) | Failure(error: E)
}
